=== FILE: README.md ===
# Water-tank controller, modelled in Dafny

This project models the decision logic of a MicroPython water-tank filling
controller. The controller meters incoming water with a pulse-counting flow
sensor and keeps a fill valve and a pump motor from ever running together.
It opens the valve on a schedule and closes it again when the fill is over.
There are two variants of the program, and they disagree on the motor rule,
so each has its own modules:

- **BLE variant** (`mainorig.py`). The modules are:
  - `FlowSensor`: the interrupt counter, the drain and the flow formula.
  - `BleController`: `set_motor` and `set_valve`, plus the once-per-second tick of `main_loop`. The tick does the scheduled opening and the zero-flow stall shut-off.
  - `ScheduleCommand`: the all-or-nothing `SCHEDULE SET HH:MM,...` parser.
  - `BleCommands`: the text-command dispatcher.
  - `BleSystem`: arbitrary interleavings of interrupts, loop passes and commands.
- **HTTP/asyncio variant** (`main.py`). The modules are:
  - `HttpController`: `control_logic`, the hard-coded weekday/weekend schedule in `check_system`, the tank-level clamp, the POST dispatch, the pulse drain and the effect of `sync_time` on the sync flag.
  - `HttpSystem`: the background pass, interleavings of requests, interrupts and paused valve openings, and the two discrepancies listed under Findings.

`PyStr` gives the Python string operations the parser relies on, on ASCII text:
- `strip`;
- `split` with and without `maxsplit`;
- `upper`;
- `in`;
- `int`.

`Results` holds `Option` and `Result`.

Every operation is a pure function on an immutable controller record. Litres and flow rates are `real`, and clock fields and timestamps are `int`. Several things become parameters:
- the clock reading;
- the echo duration of the ultrasonic sensor;
- whether a configuration save succeeded;
- whether the interrupt obtained the lock.

The main properties proved are these:
- **Interlock.** Valve and motor are never on together, and each pin follows its flag. This holds after every operation and over every interleaving in the BLE variant and in the corrected HTTP program. The HTTP program as written breaks it (see Findings).
- **Flow formulas.** The flow formulas are correct. Litres accumulated do not depend on how the pulses were spread over seconds.
- **Schedule text.** A schedule table written out as text parses back to itself.
- **Commands.** Every command, sent in its canonical spelling, is dispatched as that command.
- **Stall shut-off.** It closes the valve only after a sustained stretch of no-flow readings.
- **HTTP pulses.** No pulse is lost in the corrected HTTP program, taking the drain as one atomic step.

## Model

| member | source | states |
|---|---|---|
| FlowSensor.IrqHandler | mainorig.py:143-150 | An edge that gets the lock adds exactly one pulse. An edge that finds the lock taken leaves the sensor unchanged. |
| FlowSensor.ReadAndResetPulses | mainorig.py:152-157 | The drain returns the current count and leaves the counter at 0. |
| FlowSensor.DrainReturnsCountedEdges | mainorig.py:143-157 | After any run of edges, a drain returns the earlier count plus one for each edge that got the lock, and clears the counter. |
| FlowSensor.CalculateFlow | mainorig.py:159-169 | Litres times k_factor equals the pulses. The rate is 0 when pulses or seconds are not positive. Otherwise rate times seconds is 60 times the litres. With a positive k_factor, the rate is positive exactly when both inputs are positive. |
| FlowSensor.CalibrationExample | mainorig.py:161-165 | 450 pulses in one second at k_factor 450 gives 1.0 L at 60.0 L/min. |
| FlowSensor.AccumulationIsSplitInvariant | mainorig.py:516-519 | However the pulses are split into per-second drains, the accumulated litres times k_factor equal the total pulses. |
| BleController.Initial | mainorig.py:296-319 | Both actuators off, no scheduled run, no stall timer, and the loaded table, total and calibration with no pulses counted. The last second seen (`last_second = -1`, line 498) is one no clock shows, so the first pass always ticks. |
| BleController.SetMotor | mainorig.py:378-387 | Motor-on while the valve is open changes nothing. Otherwise the motor follows the request. The valve is never touched, and the interlock is preserved. |
| BleController.SetValve | mainorig.py:389-403 | The valve follows the request. Opening leaves the motor off. Closing leaves the motor as it was and always ends the scheduled run. Nothing else changes, and the interlock is preserved. |
| BleController.InterlockNeverViolated | mainorig.py:378-403 | From a valid state, no sequence of set_valve/set_motor calls reaches valve and motor both on. |
| BleController.ScheduleStep | mainorig.py:527-536 | The valve opens only when it is closed and the `[hour, minute]` is listed at second 0. An opening marks the run as scheduled and clears the stall timer. Otherwise nothing changes. |
| BleController.StallStep | mainorig.py:538-554 | Acts only while the valve is open for a scheduled run. The first no-flow reading starts the timer. Flow resets it to 0. A no-flow reading with a running timer younger than the timeout changes nothing. The valve closes exactly on a no-flow reading with a running timer at least the timeout old, and a close clears the timer and the scheduled flag. |
| BleController.Tick | mainorig.py:516-554 | The drained pulses go into the total: litre delta times k_factor equals the pulses. The motor is never switched on. A manual fill is never closed. An opening happens only at a listed slot on second 0, and a due slot always opens. With a non-zero k_factor, the valve is shut exactly when a scheduled run reads a rate below 0.01 L/min from the drained pulses over one second while a stall timer at least the timeout old is running. A rate at or above it clears the timer, and a slower one starts or keeps it. With a zero k_factor the pulses are lost and nothing else changes. Without a due slot the motor is untouched, and a tick with no scheduled run in progress changes nothing but the total and the counter. On the tick of a scheduled opening the stall timer ends at the tick's timestamp when there is no flow and at 0 when there is flow. |
| BleController.Poll | mainorig.py:510-519 | A second already seen changes nothing. A new second runs the tick on the state with that second recorded. The total never falls with a positive k_factor, and the interlock is preserved. |
| BleController.PollOncePerSecond | mainorig.py:510-514 | Polling again within the same second changes nothing, so a scheduled slot fires at most once. |
| BleController.StallClosesOnlyAfterSustainedNoFlow | mainorig.py:538-554 | During a scheduled run, the timer holds the start of the current no-flow stretch while the valve stays open. Once it closes, some run of consecutive no-flow readings spanned the timeout. |
| BleSystem.InterlockAlwaysHolds | mainorig.py:378-554 | Over any interleaving of pulse edges, loop passes and BLE commands, the interlock holds, pins match flags, and a scheduled run implies an open valve. |
| BleSystem.TotalOnlyGrowsWithoutReset | mainorig.py:516-519 | Without a RESET_FLOW command and with a positive k_factor, the litre total never decreases. |
| BleSystem.StallTimeoutExample | mainorig.py:538-554 | With a 5 s timeout, no-flow readings from second 1 to 6 close the valve at second 6. |
| BleSystem.StallFlowRestartExample | mainorig.py:550-554 | The same readings with flow at second 3 restart the count, so the valve is still open at second 6. |
| PyStr.Strip | mainorig.py:411 | The result is the slice of the input between leading and trailing white space, and only white space is cut. Input without white space at its ends is returned unchanged. |
| PyStr.StripIdempotent | mainorig.py:411 | Stripping twice is stripping once. |
| PyStr.Split | mainorig.py:411 | The pieces contain no separator, and joining them with the separator gives back the input. |
| PyStr.SplitJoin | mainorig.py:411 | Splitting the join of separator-free pieces gives back the pieces. |
| PyStr.SplitN | mainorig.py:440 | At most maxsplit+1 pieces. Only the last piece may contain the separator, and only when the limit was reached. Joining gives back the input. |
| PyStr.Upper | mainorig.py:438 | Same length, and each character is upper-cased. |
| PyStr.ContainsOccurs | main.py:162-164 | `needle in s` holds exactly when the needle occurs in s at some position. |
| PyStr.ParseInt | mainorig.py:416 | A result means non-blank input, and a negative result means a leading minus. A plain digit string parses to its decimal value. |
| PyStr.ParseIntAccepts | mainorig.py:416 | `int()` accepts exactly the texts that, once stripped, are an optional sign followed by at least one digit. Anything else is refused. |
| PyStr.ParseIntValue | mainorig.py:416 | An accepted literal parses to the decimal value of its digits, negated when the sign is a minus. |
| PyStr.ParseDecimal | mainorig.py:416 | Every integer written in decimal, with a minus when negative, parses back to itself. |
| PyStr.ParseTwoDigits | mainorig.py:416 | A zero-padded two-digit number parses back to itself. |
| ScheduleCommand.ParseEntry | mainorig.py:416 | An entry is parsed exactly when it splits at ':' into two pieces that are both integers. The hour and minute are those integers. |
| ScheduleCommand.ParseEntries | mainorig.py:415-420 | Succeeds exactly when every entry is accepted, giving their times in order. Otherwise it reports the first refused entry's error. |
| ScheduleCommand.ParseSchedule | mainorig.py:409-423 | A blank first entry is the empty-schedule error. Success happens exactly when every stripped entry is an in-range `HH:MM`, and the result is exactly those times in input order. Any other failure names the first refused entry. |
| ScheduleCommand.SavedReply | mainorig.py:425-431 | The reply is an `ERR:` reply exactly when the save failed. |
| ScheduleCommand.ErrorReply | mainorig.py:412-423 | Every refusal reply starts with `ERR:`. |
| ScheduleCommand.ProcessSchedule | mainorig.py:407-432 | A refused string leaves the table unchanged and replies `ERR:`. An accepted one replaces the table with the parsed times. The reply is not an error exactly when parsing and saving both succeeded. |
| ScheduleCommand.FormatSlotShape | mainorig.py:416-417 | A valid slot written as `HH:MM` has no comma or blank and parses back to the same slot. |
| ScheduleCommand.ScheduleRoundTrip | mainorig.py:409-423 | Any non-empty table of valid times, written as `HH:MM,HH:MM,...`, parses back to exactly that table. |
| BleCommands.Words | mainorig.py:438-440 | The stripped, upper-cased text cut at its first two blanks: one to three words which, joined by single blanks, give back that text. Only a third word can contain a blank. |
| BleCommands.ParseCommand | mainorig.py:438-465 | With u the stripped, upper-cased text: blank exactly when the text is only white space. VALVE or MOTOR exactly when u is that verb, one blank and a blank-free word, with `on` meaning the word is ON. The missing-verb case exactly when u is SCHEDULE. SCHEDULE SET exactly when u starts with `SCHEDULE SET `, the argument being the rest. STATUS and RESET_FLOW exactly when u is the verb or starts with the verb and a blank. |
| BleCommands.Classify | mainorig.py:443-465 | Blank exactly when the first word is empty. VALVE and MOTOR exactly with one argument, `on` meaning that argument is ON. SCHEDULE alone is the missing-verb case, and SCHEDULE SET needs exactly one more word, which is the argument. STATUS and RESET_FLOW take anything after them. Every other shape, including an unknown first word, is unknown. |
| BleCommands.ProcessBleCommand | mainorig.py:435-471 | STATUS alone gives no reply. VALVE/MOTOR go through set_valve/set_motor with `on` meaning ON and reply OK. SCHEDULE SET hands its argument to the schedule handler and returns its state and reply. RESET_FLOW zeroes the total, and only it changes the total. Only SCHEDULE SET changes the table. Blank, lone SCHEDULE and unknown commands change nothing and get their error replies. The interlock is preserved. |
| BleCommands.Dispatch | mainorig.py:443-471 | The same effects and replies, for each parsed command. |
| BleCommands.DispatchByWords | mainorig.py:438-465 | Read off the words of any text: `VALVE x` and `MOTOR x` set the actuator to whether x is ON and reply OK. A first word that is not a known verb changes nothing and gets the unknown-command reply. |
| BleCommands.ParseSpelledCommand | mainorig.py:443-465 | Every command sent in its canonical spelling is parsed as that command. |
| HttpController.Initial | main.py:30-45 | The start state has both actuators off and pins high. The loaded total is kept. No pulses are pending, there is no alert, the level reads 0, the open time is 0 and the clock is not synced. |
| HttpController.FlowHandler | main.py:49-50 | An edge adds one pulse and changes nothing else. |
| HttpController.Clamp | main.py:93 | The result lies in [0, 100], equals the input inside that range, and is the nearer bound outside it. |
| HttpController.TankLevel | main.py:89-93 | The level lies in [0, 100]. A negative (timed-out) echo reads 0 and a zero echo reads 100. |
| HttpController.TankLevelMonotone | main.py:91-93 | A longer echo never gives a higher level. |
| HttpController.StopMotorForValve | main.py:100-103 | A running motor is stopped. Nothing else changes. |
| HttpController.OpenValve | main.py:106-109 | Corrected form (see Findings). The valve is open, the motor off, the opening time recorded and the alert cleared. Nothing else changes. |
| HttpController.ControlLogic | main.py:96-127 | Valve-on: the valve opens, the motor is off, the open time is now and the alert is cleared. Motor-on above 10 %: the motor runs and the valve is closed. Motor-on at or below 10 %: only the low-level alert is set. Turning off affects only the named actuator ('valve', otherwise the motor). The interlock and the active-low pins are preserved. |
| HttpController.ControlLogicKeepsInterlock | main.py:96-127 | No sequence of control_logic calls reaches valve and motor both on. |
| HttpController.CheckSystem | main.py:129-151 | Corrected form (see Findings). Nothing happens unless time is synced. A closed valve opens exactly at minute 0, second 0 of the start hour, 12 or 19, through control_logic('valve', True); otherwise it is left exactly as it was. The start hour is 7 on weekdays and 8 at weekends. An open valve closes exactly when it has been open more than FLOW_TIMEOUT with no pulse in the last second. The close goes through control_logic('valve', False) and raises the fill-finished alert. An open valve that stays open is left exactly as it was, opening time and alert included. |
| HttpController.ServeClient | main.py:161-166 | Only POST changes state. A valve toggle always flips the valve. A motor toggle flips the motor unless that is a start at low level. A flow reset zeroes the total, and only a reset changes it. The interlock is preserved. A POST to any other path changes nothing. |
| HttpController.SyncTime | main.py:72-81 | The first NTP server that answers marks the clock synced. Failing servers are skipped, and when all fail the flag is left as it was. Nothing else changes. |
| HttpController.DrainPulses | main.py:212-214 | The pending pulses move into the total (litre delta times K_FACTOR equals the pulses), and the counter ends at 0. With no pulses nothing changes. |
| HttpSystem.CheckSystemAsWritten | main.py:129-151 | As written: an open, synced valve closes exactly when open longer than FLOW_TIMEOUT while the pulse counter reads 0. The schedule opens as in CheckSystem. A pass that neither opens nor closes leaves the state exactly as it was, and an opening or close is exactly the control_logic call plus, for a close, the alert. Total, level, counter and sync flag are untouched, the motor is never started, and the interlock is preserved. |
| HttpSystem.BackgroundStepAsWritten | main.py:207-216 | As written: level, then drain, then check. The drained pulses go into the total (litre delta times K_FACTOR equals the pulses). A closed, synced valve opens exactly on schedule. An open valve past the timeout closes unless an edge arrived between the drain and the test. Apart from level, total and counter, a pass changes only what the opening or the close does through control_logic. The motor is never started, and the interlock is preserved. |
| HttpSystem.TimeoutClosesFlowingValveAsWritten | main.py:143-148 | As written, a valve open longer than FLOW_TIMEOUT is closed by the next pass, whatever the flow in the last second. |
| HttpSystem.FlowingFillCutAfterTimeoutAsWritten | main.py:211-216 | A concrete instance of the timeout close: a valve opened at t=1000 with 450 pulses in the last second is closed at t=1301, with the fill reported as finished. |
| HttpSystem.BackgroundStep | main.py:211-216 | Corrected pass: the level is read and the drain is accounted for. A closed valve opens exactly on schedule. An open valve closes exactly when open past FLOW_TIMEOUT with no pulse drained. Apart from level, total and counter, a pass changes only what the opening or the close does through control_logic, so an open valve keeps its opening time. The motor is never started, and the interlock is preserved. |
| HttpSystem.FlowingValveStaysOpen | main.py:143-148 | Corrected: a valve with flow in the last second stays open. Without flow, it stays open exactly while within FLOW_TIMEOUT. |
| HttpSystem.DryValveClosesAtTimeout | main.py:141-148 | Corrected: over any run of background passes with no flow, a synced open valve stays open while within FLOW_TIMEOUT, and the first pass past it closes the valve with the fill-finished alert. |
| HttpSystem.ResumeOpenValveAsWritten | main.py:104-109 | As written, the resumed opening opens the valve and leaves the motor as it finds it. |
| HttpSystem.OpeningWithoutInterleavingAgrees | main.py:98-109 | With no other coroutine during the pause, the opening as written equals the corrected one and equals control_logic('valve', True). |
| HttpSystem.Step | main.py:49-221 | Corrected form (see Findings). Every event (edge, background pass, request, paused or resumed opening, time sync) preserves the interlock and the active-low pins. |
| HttpSystem.InterlockAlwaysHolds | main.py:96-127 | Corrected form (see Findings). Over any interleaving of edges, passes, requests and paused valve openings, valve and motor are never on together and the pins follow the flags. |
| HttpSystem.MotorToggleDuringPauseAsWritten | main.py:98-117 | As written, a motor toggle posted during the 2 s pause of a valve opening ends with valve and motor both on. |
| HttpSystem.MotorToggleDuringPauseCorrected | main.py:98-117 | Corrected: the same interleaving ends with the valve open and the motor off. |
| HttpSystem.StepConserves | main.py:211-214 | Every event except a flow reset accounts for all pulses. |
| HttpSystem.PulsesAreConserved | main.py:49-50 | Corrected form (see Findings). Over any run without a flow reset, litres added times K_FACTOR plus pending pulses equal the initial pending pulses plus the edges seen. |
| HttpSystem.TotalOnlyGrowsWithoutReset | main.py:211-214 | Corrected form (see Findings). Without a flow reset and with a positive K_FACTOR, the litre total never decreases. |

## Left out

- BLE stack (advertising, GATT, notifications, `notify_status` and the STATUS message text), Wi-Fi, NTP and time-zone arithmetic. These are hardware, library and network calls. The clock is an input record and the STATUS command is modelled only as "no reply, no state change".
- The cadence of `sync_time` in the HTTP variant (once at start, then every 3600 passes). A time-sync event may occur at any point in a run, with its outcome as a parameter.
- Configuration and log file persistence, including the periodic saves in both main loops. Whether a schedule save succeeded is a parameter. A RESET_FLOW or `/flow/reset` is modelled as zeroing the total whether or not the file write works, as the code does.
- `ota.py`, HTML rendering and HTTP request-line parsing: the method and path are inputs. An exception while reading a request is also left out.
- The ultrasonic trigger/echo timing. Only the conversion and clamp of a measured duration are modelled, and the duration is an input.
- True preemption. Each interrupt, drain, loop pass, command and `control_logic` call is one atomic step. The exception is the 2 s `await` inside a valve opening of the HTTP variant, which is split in two. BLE callbacks running in the middle of `set_valve` at bytecode granularity are not modelled.
- Floating-point rounding. Litres and rates are exact reals.
- Text handling covers ASCII only:
  - Python's Unicode white space, case mapping and digits are left out, as are underscores accepted by `int()`.
  - Failures of `bytes.decode()` (the generic `ERR: Exception ...` reply) are left out.
  - The IndexError reply for a lone `SCHEDULE` is modelled with CPython's message text.
- FlowSensor.CalculateFlow: requires a non-zero k_factor, because Python raises ZeroDivisionError there. The raise and its catch in the BLE loop are modelled in BleController.Tick (pulses lost, rest of the tick skipped).
- HttpController.DrainPulses: requires a non-zero K_FACTOR when pulses are pending. In the source that division is uncaught and ends the background task. The web server keeps serving requests, but with no further passes the level, total and valve timeout stop being updated. That mode is not modelled.
- HttpSystem.Step: requires a non-zero K_FACTOR for the same reason, so runs in which the background task has died and only requests and edges remain are not modelled.
- HttpSystem.PulsesAreConserved: takes the drain at main.py:213-214 as one atomic step. In the source an edge landing between the read of `self.pulses` in line 213 and the reset in line 214 is lost.
- The "ERR: Horario no procesado" reply (mainorig.py:432) is unreachable. A string that gets past the empty check has at least one entry, so an all-accepted parse is never empty. ProcessSchedule therefore has no such branch.

Where the code and the written design of the system differ, the model follows the code:
- A BLE `MOTOR ON` refused by the interlock still replies `OK`.
- `set_valve(False)` does not clear the BLE stall timer. This is harmless, because every scheduled opening clears it.
- A `SCHEDULE SET` whose save fails still replaces the table in memory and replies with an error.
- In the HTTP variant the timeout applies to manual fills as well, and it counts total open time, not a stall.

## Findings

| source | as written | input that shows it | evidently intended | confidence | as-written member | corrected member |
|---|---|---|---|---|---|---|
| main.py:144-148 with 212-214 | The timeout close tests `self.pulses == 0`, but the background pass has just drained the counter to 0. So any valve open longer than FLOW_TIMEOUT is closed on the next pass, even while water flows. | Valve opened at t=1000. 450 pulses counted in the second before the pass at t=1301. The valve is closed and "fill finished" is reported. | Close only when no pulse arrived in the last second: nothing drained and nothing pending. | medium, not executed | HttpSystem.BackgroundStepAsWritten, HttpSystem.TimeoutClosesFlowingValveAsWritten, HttpSystem.FlowingFillCutAfterTimeoutAsWritten | HttpController.CheckSystem, HttpSystem.BackgroundStep, HttpSystem.FlowingValveStaysOpen |
| main.py:98-109 with 111-117 and 162-163 | `control_logic('valve', True)` turns a running motor off and then sleeps 2 s. It then opens the valve without looking at the motor again. A `/motor/toggle` served during the sleep restarts the motor, because the valve is still closed and the level is above 10 %. The resumed opening then leaves both on. | Motor on, level 50 %. A valve opening begins. POST `/motor/toggle` arrives during the pause. The opening then resumes. | Valve and motor are never on together. The resumed opening stops a running motor first. | high, not executed | HttpSystem.ResumeOpenValveAsWritten, HttpSystem.MotorToggleDuringPauseAsWritten | HttpController.OpenValve, HttpSystem.MotorToggleDuringPauseCorrected, HttpSystem.InterlockAlwaysHolds |

=== FILE: ble_commands.dfy ===
/** The BLE command channel (`process_ble_command` in mainorig.py): the
    written text is stripped, upper-cased and split into at most three
    words, then mapped onto the actuator, schedule and reset operations. */
module BleCommands {
  import opened Results
  import opened PyStr
  import opened BleController
  import opened ScheduleCommand

  /** The commands the dispatcher tells apart. `ScheduleWithoutVerb` is a
      lone `SCHEDULE`, on which the source indexes a missing second word
      and replies with the caught IndexError. */
  datatype Command =
    | Blank
    | Valve(on: bool)
    | Motor(on: bool)
    | ScheduleWithoutVerb
    | ScheduleSet(arg: string)
    | Status
    | ResetFlow
    | Unknown

  /** The words of a command: the text with its surrounding white space
      cut and its letters upper-cased, split at the first two blanks. */
  function Words(text: string): (parts: seq<string>)
    ensures 1 <= |parts| <= 3
    ensures Join(parts, ' ') == Upper(Strip(text))
    ensures forall i :: 0 <= i < |parts| - 1 ==> ' ' !in parts[i]
    ensures |parts| <= 2 ==> ' ' !in parts[|parts| - 1]
  {
    SplitN(Upper(Strip(text)), ' ', 2)
  }

  /** The verbs the dispatcher knows. */
  predicate KnownVerb(w: string) {
    w in {"", "VALVE", "MOTOR", "SCHEDULE", "STATUS", "RESET_FLOW"}
  }

  /** The dispatcher's `if`/`elif` chain on the words: VALVE and MOTOR
      need exactly one argument, SCHEDULE SET exactly one after SET, and
      STATUS and RESET_FLOW take anything after them. A lone SCHEDULE is
      the missing-verb case; every other shape is unknown. */
  function Classify(parts: seq<string>): (cmd: Command)
    requires 1 <= |parts| <= 3
    ensures cmd == Blank <==> parts[0] == ""
    ensures cmd.Valve? <==> parts[0] == "VALVE" && |parts| == 2
    ensures cmd.Motor? <==> parts[0] == "MOTOR" && |parts| == 2
    ensures cmd.Valve? || cmd.Motor? ==> (cmd.on <==> parts[1] == "ON")
    ensures cmd == ScheduleWithoutVerb <==> parts[0] == "SCHEDULE" && |parts| == 1
    ensures cmd.ScheduleSet? <==> parts[0] == "SCHEDULE" && |parts| == 3 && parts[1] == "SET"
    ensures cmd.ScheduleSet? ==> cmd.arg == parts[2]
    ensures cmd == Status <==> parts[0] == "STATUS"
    ensures cmd == ResetFlow <==> parts[0] == "RESET_FLOW"
    ensures cmd == Unknown <==>
              || !KnownVerb(parts[0])
              || ((parts[0] == "VALVE" || parts[0] == "MOTOR") && |parts| != 2)
              || (parts[0] == "SCHEDULE" && |parts| >= 2 && !(|parts| == 3 && parts[1] == "SET"))
  {
    if parts[0] == "" then Blank
    else if parts[0] == "VALVE" && |parts| == 2 then Valve(parts[1] == "ON")
    else if parts[0] == "MOTOR" && |parts| == 2 then Motor(parts[1] == "ON")
    else if parts[0] == "SCHEDULE" && |parts| == 1 then ScheduleWithoutVerb
    else if parts[0] == "SCHEDULE" && parts[1] == "SET" && |parts| == 3 then ScheduleSet(parts[2])
    else if parts[0] == "STATUS" then Status
    else if parts[0] == "RESET_FLOW" then ResetFlow
    else Unknown
  }

  /** A verb followed by one argument without blanks; `prefix` is the
      verb and a blank. */
  lemma VerbWithArgument(u: string, verb: string, prefix: string)
    requires |verb| > 0 && ' ' !in verb && prefix == verb + " "
    ensures var parts := SplitN(u, ' ', 2);
            (parts[0] == verb && |parts| == 2) <==>
              |u| >= |prefix| && u[..|prefix|] == prefix && ' ' !in u[|prefix|..]
    ensures var parts := SplitN(u, ' ', 2);
            parts[0] == verb && |parts| == 2 ==> parts[1] == u[|prefix|..]
  {
    SplitNHead(u, ' ', 2, verb, prefix);
    if |u| >= |prefix| && u[..|prefix|] == prefix {
      SplitNAfterPrefix(u, ' ', 2, verb, prefix);
      SplitNWhole(u[|prefix|..], ' ', 1);
    }
  }

  /** A verb standing alone. */
  lemma LoneVerb(u: string, verb: string)
    requires |verb| > 0 && ' ' !in verb
    ensures var parts := SplitN(u, ' ', 2);
            (parts[0] == verb && |parts| == 1) <==> u == verb
  {
    SplitNWhole(u, ' ', 2);
    if u == verb {
      SplitNNoSeparator(u, ' ', 2);
    }
  }

  /** A verb followed by anything; `prefix` is the verb and a blank. */
  lemma LeadingVerb(u: string, verb: string, prefix: string)
    requires |verb| > 0 && ' ' !in verb && prefix == verb + " "
    ensures SplitN(u, ' ', 2)[0] == verb <==> u == verb || (|u| >= |prefix| && u[..|prefix|] == prefix)
  {
    SplitNHead(u, ' ', 2, verb, prefix);
  }

  /** SET followed by the rest, under a split that cuts once. */
  lemma SetArgument(w: string)
    ensures var p := SplitN(w, ' ', 1);
            (p[0] == "SET" && |p| == 2) <==> |w| >= 4 && w[..4] == "SET "
    ensures var p := SplitN(w, ' ', 1);
            p[0] == "SET" && |p| == 2 ==> p[1] == w[4..]
  {
    SplitNHead(w, ' ', 1, "SET", "SET ");
    if w == "SET" {
      SplitNNoSeparator(w, ' ', 1);
    }
    if |w| >= 4 && w[..4] == "SET " {
      SplitNAfterPrefix(w, ' ', 1, "SET", "SET ");
      assert SplitN(w[4..], ' ', 0) == [w[4..]];
    }
  }

  /** SCHEDULE followed by at least one more word. */
  lemma ScheduleAndMore(u: string)
    ensures var parts := SplitN(u, ' ', 2);
            (parts[0] == "SCHEDULE" && |parts| >= 2) <==> |u| >= 9 && u[..9] == "SCHEDULE "
    ensures var parts := SplitN(u, ' ', 2);
            parts[0] == "SCHEDULE" && |parts| >= 2 ==> parts == ["SCHEDULE"] + SplitN(u[9..], ' ', 1)
  {
    SplitNHead(u, ' ', 2, "SCHEDULE", "SCHEDULE ");
    if u == "SCHEDULE" {
      SplitNNoSeparator(u, ' ', 2);
    }
    if |u| >= 9 && u[..9] == "SCHEDULE " {
      SplitNAfterPrefix(u, ' ', 2, "SCHEDULE", "SCHEDULE ");
    }
  }

  /** A prefix `a + b` is the prefix `a` followed, in the rest, by the prefix `b`. */
  lemma PrefixConcat(u: string, a: string, b: string)
    ensures (|u| >= |a + b| && u[..|a + b|] == a + b) <==>
              (|u| >= |a| && u[..|a|] == a && |u[|a|..]| >= |b| && u[|a|..][..|b|] == b)
  {
    if |u| >= |a + b| && u[..|a + b|] == a + b {
      assert u[..|a|] == (a + b)[..|a|] == a;
      assert u[|a|..][..|b|] == (a + b)[|a|..] == b;
    }
    if |u| >= |a| && u[..|a|] == a && |u[|a|..]| >= |b| && u[|a|..][..|b|] == b {
      assert u[..|a + b|] == u[..|a|] + u[|a|..][..|b|];
    }
  }

  /** `SCHEDULE SET` followed by the rest of the text. */
  lemma ScheduleSetPrefix(u: string)
    ensures var parts := SplitN(u, ' ', 2);
            (parts[0] == "SCHEDULE" && |parts| == 3 && parts[1] == "SET") <==>
              |u| >= 13 && u[..13] == "SCHEDULE SET "
    ensures var parts := SplitN(u, ' ', 2);
            parts[0] == "SCHEDULE" && |parts| == 3 && parts[1] == "SET" ==> parts[2] == u[13..]
  {
    ScheduleAndMore(u);
    PrefixConcat(u, "SCHEDULE ", "SET ");
    if |u| >= 9 && u[..9] == "SCHEDULE " {
      var w := u[9..];
      SetArgument(w);
      if |w| >= 4 {
        assert w[4..] == u[13..];
      }
    }
  }

  /** The words of VALVE and MOTOR commands, on the stripped upper-cased text. */
  lemma ValveWords(u: string)
    ensures var parts := SplitN(u, ' ', 2);
            && ((parts[0] == "VALVE" && |parts| == 2) <==> |u| >= 6 && u[..6] == "VALVE " && ' ' !in u[6..])
            && (parts[0] == "VALVE" && |parts| == 2 ==> parts[1] == u[6..])
  {
    VerbWithArgument(u, "VALVE", "VALVE ");
  }

  lemma MotorWords(u: string)
    ensures var parts := SplitN(u, ' ', 2);
            && ((parts[0] == "MOTOR" && |parts| == 2) <==> |u| >= 6 && u[..6] == "MOTOR " && ' ' !in u[6..])
            && (parts[0] == "MOTOR" && |parts| == 2 ==> parts[1] == u[6..])
  {
    VerbWithArgument(u, "MOTOR", "MOTOR ");
  }

  lemma StatusWord(u: string)
    ensures SplitN(u, ' ', 2)[0] == "STATUS" <==> u == "STATUS" || (|u| >= 7 && u[..7] == "STATUS ")
  {
    LeadingVerb(u, "STATUS", "STATUS ");
  }

  lemma ResetFlowWord(u: string)
    ensures SplitN(u, ' ', 2)[0] == "RESET_FLOW" <==>
              u == "RESET_FLOW" || (|u| >= 11 && u[..11] == "RESET_FLOW ")
  {
    LeadingVerb(u, "RESET_FLOW", "RESET_FLOW ");
  }

  lemma LoneSchedule(u: string)
    ensures var parts := SplitN(u, ' ', 2);
            (parts[0] == "SCHEDULE" && |parts| == 1) <==> u == "SCHEDULE"
  {
    LoneVerb(u, "SCHEDULE");
  }

  /** The Valve clauses of ParseCommand, on the stripped upper-cased text. */
  lemma ClassifyValve(u: string)
    ensures var cmd := Classify(SplitN(u, ' ', 2));
            && (cmd.Valve? <==> |u| >= 6 && u[..6] == "VALVE " && ' ' !in u[6..])
            && (cmd.Valve? ==> (cmd.on <==> u[6..] == "ON"))
  {
    ValveWords(u);
  }

  lemma ClassifyMotor(u: string)
    ensures var cmd := Classify(SplitN(u, ' ', 2));
            && (cmd.Motor? <==> |u| >= 6 && u[..6] == "MOTOR " && ' ' !in u[6..])
            && (cmd.Motor? ==> (cmd.on <==> u[6..] == "ON"))
  {
    MotorWords(u);
  }

  lemma ClassifySchedule(u: string)
    ensures var cmd := Classify(SplitN(u, ' ', 2));
            && (cmd == ScheduleWithoutVerb <==> u == "SCHEDULE")
            && (cmd.ScheduleSet? <==> |u| >= 13 && u[..13] == "SCHEDULE SET ")
            && (cmd.ScheduleSet? ==> cmd.arg == u[13..])
  {
    LoneSchedule(u);
    ScheduleSetPrefix(u);
  }

  lemma ClassifyStatus(u: string)
    ensures Classify(SplitN(u, ' ', 2)) == Status <==> u == "STATUS" || (|u| >= 7 && u[..7] == "STATUS ")
  {
    StatusWord(u);
  }

  lemma ClassifyResetFlow(u: string)
    ensures Classify(SplitN(u, ' ', 2)) == ResetFlow <==>
              u == "RESET_FLOW" || (|u| >= 11 && u[..11] == "RESET_FLOW ")
  {
    ResetFlowWord(u);
  }

  /** The dispatcher's decision on the text, stated on the text itself
      once stripped and upper-cased: only white space is a blank command,
      VALVE and MOTOR take one blank-free argument, SCHEDULE SET takes the
      rest of the text, and STATUS and RESET_FLOW are recognised as the
      first word whatever follows. */
  function ParseCommand(text: string): (cmd: Command)
    ensures cmd == Blank <==> Strip(text) == ""
    ensures var u := Upper(Strip(text));
            && (cmd.Valve? <==> |u| >= 6 && u[..6] == "VALVE " && ' ' !in u[6..])
            && (cmd.Valve? ==> (cmd.on <==> u[6..] == "ON"))
    ensures var u := Upper(Strip(text));
            && (cmd.Motor? <==> |u| >= 6 && u[..6] == "MOTOR " && ' ' !in u[6..])
            && (cmd.Motor? ==> (cmd.on <==> u[6..] == "ON"))
    ensures cmd == ScheduleWithoutVerb <==> Upper(Strip(text)) == "SCHEDULE"
    ensures var u := Upper(Strip(text));
            && (cmd.ScheduleSet? <==> |u| >= 13 && u[..13] == "SCHEDULE SET ")
            && (cmd.ScheduleSet? ==> cmd.arg == u[13..])
    ensures var u := Upper(Strip(text));
            cmd == Status <==> u == "STATUS" || (|u| >= 7 && u[..7] == "STATUS ")
    ensures var u := Upper(Strip(text));
            cmd == ResetFlow <==> u == "RESET_FLOW" || (|u| >= 11 && u[..11] == "RESET_FLOW ")
  {
    var t := Strip(text);
    var u := Upper(t);
    assert |t| > 0 ==> u[0] == UpperChar(t[0]) && UpperChar(t[0]) != ' ';
    ClassifyValve(u);
    ClassifyMotor(u);
    ClassifySchedule(u);
    ClassifyStatus(u);
    ClassifyResetFlow(u);
    Classify(Words(text))
  }

  /** The replies the dispatcher sends back. */
  const OkReply := "OK"
  const NoCommandReply := "ERR: No command"
  const IndexErrorReply := "ERR: Exception list index out of range"
  const ResetReply := "OK: FLOW_TOTAL reset to 0.0"
  const UnknownReply := "ERR: Comando desconocido"

  /** The effect of one recognised command on the controller and the reply
      it earns (None for STATUS, which answers by notification instead).
      `saved` is whether a schedule change reached the configuration file. */
  function Dispatch(s: Controller, cmd: Command, saved: bool): (r: (Controller, Option<string>))
    ensures r.1 == None <==> cmd == Status
    ensures cmd in {Blank, ScheduleWithoutVerb, Status, Unknown} ==> r.0 == s
    ensures cmd == Blank ==> r.1 == Some(NoCommandReply)
    ensures cmd == ScheduleWithoutVerb ==> r.1 == Some(IndexErrorReply)
    ensures cmd == Unknown ==> r.1 == Some(UnknownReply)
    ensures cmd.Valve? ==> r.0 == SetValve(s, cmd.on)
    ensures cmd.Motor? ==> r.0 == SetMotor(s, cmd.on)
    ensures cmd.Valve? || cmd.Motor? ==> r.1 == Some(OkReply)
    ensures cmd.ScheduleSet? ==>
              var (s', reply) := ProcessSchedule(s, cmd.arg, saved);
              r == (s', Some(reply))
    ensures cmd == ResetFlow ==> r == (s.(litersTotal := 0.0), Some(ResetReply))
    ensures r.0.litersTotal != s.litersTotal ==> cmd == ResetFlow && r.0.litersTotal == 0.0
    ensures r.0.scheduledTimes != s.scheduledTimes ==> cmd.ScheduleSet?
    ensures r.0.sensor == s.sensor && r.0.lastSecond == s.lastSecond
    ensures r.0.flowStopTimerStart == s.flowStopTimerStart
    ensures Valid(s) ==> Valid(r.0)
  {
    match cmd
    case Blank => (s, Some(NoCommandReply))
    case Valve(on) => (SetValve(s, on), Some(OkReply))
    case Motor(on) => (SetMotor(s, on), Some(OkReply))
    case ScheduleWithoutVerb => (s, Some(IndexErrorReply))
    case ScheduleSet(arg) =>
      var (s', reply) := ProcessSchedule(s, arg, saved);
      (s', Some(reply))
    case Status => (s, None)
    case ResetFlow => (s.(litersTotal := 0.0), Some(ResetReply))
    case Unknown => (s, Some(UnknownReply))
  }

  /** `process_ble_command`: the text is parsed and its command dispatched;
      the word-level reading of this is `DispatchByWords`. */
  function ProcessBleCommand(s: Controller, text: string, saved: bool): (r: (Controller, Option<string>))
    ensures var cmd := ParseCommand(text);
            && (r.1 == None <==> cmd == Status)
            && (cmd in {Blank, ScheduleWithoutVerb, Status, Unknown} ==> r.0 == s)
            && (cmd == Blank ==> r.1 == Some(NoCommandReply))
            && (cmd == ScheduleWithoutVerb ==> r.1 == Some(IndexErrorReply))
            && (cmd == Unknown ==> r.1 == Some(UnknownReply))
            && (cmd.Valve? ==> r == (SetValve(s, cmd.on), Some(OkReply)))
            && (cmd.Motor? ==> r == (SetMotor(s, cmd.on), Some(OkReply)))
            && (cmd.ScheduleSet? ==>
                  var (s', reply) := ProcessSchedule(s, cmd.arg, saved);
                  r == (s', Some(reply)))
            && (cmd == ResetFlow ==> r == (s.(litersTotal := 0.0), Some(ResetReply)))
            && (r.0.litersTotal != s.litersTotal ==> cmd == ResetFlow && r.0.litersTotal == 0.0)
            && (r.0.scheduledTimes != s.scheduledTimes ==> cmd.ScheduleSet?)
    ensures r.0.sensor == s.sensor && r.0.lastSecond == s.lastSecond
    ensures r.0.flowStopTimerStart == s.flowStopTimerStart
    ensures Valid(s) ==> Valid(r.0)
  {
    Dispatch(s, ParseCommand(text), saved)
  }

  /** The dispatch read off the words of any text: `VALVE x` and `MOTOR x`
      set the actuator to whether x is ON, and a first word the dispatcher
      does not know changes nothing and gets the unknown-command reply. */
  lemma DispatchByWords(s: Controller, text: string, saved: bool)
    ensures var w := Words(text);
            |w| == 2 && w[0] == "VALVE" ==>
              ProcessBleCommand(s, text, saved) == (SetValve(s, w[1] == "ON"), Some(OkReply))
    ensures var w := Words(text);
            |w| == 2 && w[0] == "MOTOR" ==>
              ProcessBleCommand(s, text, saved) == (SetMotor(s, w[1] == "ON"), Some(OkReply))
    ensures !KnownVerb(Words(text)[0]) ==> ProcessBleCommand(s, text, saved) == (s, Some(UnknownReply))
  {
    assert ParseCommand(text) == Classify(Words(text));
  }

  function OnOff(on: bool): string {
    if on then "ON" else "OFF"
  }

  /** Commands that have a canonical spelling: a schedule argument must
      survive stripping and upper-casing unchanged. */
  predicate Spellable(cmd: Command) {
    cmd.ScheduleSet? ==> |cmd.arg| > 0 && !IsSpace(cmd.arg[|cmd.arg| - 1]) && NoLower(cmd.arg)
  }

  /** The canonical text of a command, as a client would send it. */
  function Spell(cmd: Command): string
    requires Spellable(cmd)
  {
    match cmd
    case Blank => ""
    case Valve(on) => "VALVE" + " " + OnOff(on)
    case Motor(on) => "MOTOR" + " " + OnOff(on)
    case ScheduleWithoutVerb => "SCHEDULE"
    case ScheduleSet(arg) => "SCHEDULE" + " " + ("SET" + " " + arg)
    case Status => "STATUS"
    case ResetFlow => "RESET_FLOW"
    case Unknown => "?"
  }

  /** A verb and its argument, joined by one blank, are already stripped
      and upper-case. */
  lemma CanonicalIsClean(verb: string, rest: string)
    requires |verb| > 0 && !IsSpace(verb[0]) && NoLower(verb)
    requires |rest| > 0 && !IsSpace(rest[|rest| - 1]) && NoLower(rest)
    ensures Upper(Strip(verb + " " + rest)) == verb + " " + rest
  {
    var t := verb + " " + rest;
    assert t[0] == verb[0] && t[|t| - 1] == rest[|rest| - 1];
    NoLowerConcat(verb, " ");
    NoLowerConcat(verb + " ", rest);
    UpperFixes(t);
  }

  lemma WordsOfCanonical(verb: string, rest: string)
    requires |verb| > 0 && !IsSpace(verb[0]) && ' ' !in verb && NoLower(verb)
    requires |rest| > 0 && !IsSpace(rest[|rest| - 1]) && NoLower(rest)
    ensures Words(verb + " " + rest) == [verb] + SplitN(rest, ' ', 1)
  {
    CanonicalIsClean(verb, rest);
    assert verb + " " + rest == verb + [' '] + rest;
    SplitNAtFirstSeparator(verb, rest, ' ', 2);
  }

  lemma WordsOfKeyword(verb: string)
    requires |verb| > 0 && !IsSpace(verb[0]) && !IsSpace(verb[|verb| - 1]) && ' ' !in verb && NoLower(verb)
    ensures Words(verb) == [verb]
  {
    UpperFixes(verb);
    SplitNNoSeparator(verb, ' ', 2);
  }

  lemma ParseSpelledValve(on: bool)
    ensures ParseCommand(Spell(Valve(on))) == Valve(on)
  {
    WordsOfCanonical("VALVE", OnOff(on));
    SplitNNoSeparator(OnOff(on), ' ', 1);
    assert Words(Spell(Valve(on))) == ["VALVE", OnOff(on)];
  }

  lemma ParseSpelledMotor(on: bool)
    ensures ParseCommand(Spell(Motor(on))) == Motor(on)
  {
    WordsOfCanonical("MOTOR", OnOff(on));
    SplitNNoSeparator(OnOff(on), ' ', 1);
    assert Words(Spell(Motor(on))) == ["MOTOR", OnOff(on)];
  }

  lemma SetArgumentWords(arg: string)
    ensures SplitN("SET" + " " + arg, ' ', 1) == ["SET", arg]
  {
    assert "SET" + " " + arg == "SET" + [' '] + arg;
    SplitNAtFirstSeparator("SET", arg, ' ', 1);
    assert SplitN(arg, ' ', 0) == [arg];
  }

  lemma ScheduleSetWords(arg: string)
    requires Spellable(ScheduleSet(arg))
    ensures Words(Spell(ScheduleSet(arg))) == ["SCHEDULE", "SET", arg]
  {
    var rest := "SET" + " " + arg;
    NoLowerConcat("SET" + " ", arg);
    assert rest[|rest| - 1] == arg[|arg| - 1];
    WordsOfCanonical("SCHEDULE", rest);
    SetArgumentWords(arg);
  }

  lemma ParseSpelledScheduleSet(arg: string)
    requires Spellable(ScheduleSet(arg))
    ensures ParseCommand(Spell(ScheduleSet(arg))) == ScheduleSet(arg)
  {
    ScheduleSetWords(arg);
    assert Classify(["SCHEDULE", "SET", arg]) == ScheduleSet(arg);
  }

  lemma ParseSpelledKeyword(word: string, cmd: Command)
    requires |word| > 0 && !IsSpace(word[0]) && !IsSpace(word[|word| - 1])
    requires ' ' !in word && NoLower(word)
    requires Classify([word]) == cmd
    ensures ParseCommand(word) == cmd
  {
    WordsOfKeyword(word);
  }

  lemma ParseSpelledBlank()
    ensures ParseCommand(Spell(Blank)) == Blank
  {
    assert Strip("") == "";
  }

  lemma ParseSpelledScheduleWithoutVerb()
    ensures ParseCommand(Spell(ScheduleWithoutVerb)) == ScheduleWithoutVerb
  {
    ParseSpelledKeyword("SCHEDULE", ScheduleWithoutVerb);
  }

  lemma ParseSpelledStatus()
    ensures ParseCommand(Spell(Status)) == Status
  {
    ParseSpelledKeyword("STATUS", Status);
  }

  lemma ParseSpelledResetFlow()
    ensures ParseCommand(Spell(ResetFlow)) == ResetFlow
  {
    ParseSpelledKeyword("RESET_FLOW", ResetFlow);
  }

  lemma ParseSpelledUnknown()
    ensures ParseCommand(Spell(Unknown)) == Unknown
  {
    ParseSpelledKeyword("?", Unknown);
  }

  /** Every spellable command, sent in its canonical spelling, is
      dispatched as that command: the parser recognises all of them. */
  lemma ParseSpelledCommand(cmd: Command)
    requires Spellable(cmd)
    ensures ParseCommand(Spell(cmd)) == cmd
  {
    match cmd
    case Blank => ParseSpelledBlank();
    case Valve(on) => ParseSpelledValve(on);
    case Motor(on) => ParseSpelledMotor(on);
    case ScheduleWithoutVerb => ParseSpelledScheduleWithoutVerb();
    case ScheduleSet(arg) => ParseSpelledScheduleSet(arg);
    case Status => ParseSpelledStatus();
    case ResetFlow => ParseSpelledResetFlow();
    case Unknown => ParseSpelledUnknown();
  }
}

=== FILE: ble_controller.dfy ===
/** The BLE variant's SystemController (mainorig.py): the valve/motor
    interlock, the scheduled opening and the zero-flow shut-off, driven by
    the once-per-second body of the main loop. Clock readings and
    configuration are inputs; pins are active-high (1 = on). */
module BleController {
  import opened FlowSensor

  type PinLevel = x: int | 0 <= x <= 1

  /** One `[hour, minute]` entry of SCHEDULED_TIMES. */
  datatype Slot = Slot(hour: int, minute: int)

  /** The configuration read at start-up: FLOW_STOP_TIMEOUT in seconds. */
  datatype Config = Config(flowStopTimeout: int)

  /** One reading of the local clock and of `time.time()`. */
  datatype Clock = Clock(hour: int, minute: int, second: int, timestamp: int)

  /** `flowStopTimerStart` is 0 when no zero-flow stretch is being timed. */
  datatype Controller = Controller(
    valveOn: bool,
    motorOn: bool,
    valvePin: PinLevel,
    motorPin: PinLevel,
    scheduledRunActive: bool,
    flowStopTimerStart: int,
    scheduledTimes: seq<Slot>,
    litersTotal: real,
    sensor: Sensor,
    lastSecond: int)

  /** Flow below this many L/min counts as no flow. */
  const NoFlowLpm: real := 0.01

  function Level(on: bool): PinLevel {
    if on then 1 else 0
  }

  /** The safety rule: valve and motor are never on together. */
  predicate Interlocked(s: Controller) {
    !(s.valveOn && s.motorOn)
  }

  /** Each pin drives its actuator exactly when the flag says it is on. */
  predicate PinsAgree(s: Controller) {
    s.valvePin == Level(s.valveOn) && s.motorPin == Level(s.motorOn)
  }

  /** What every reachable state satisfies: the interlock, pins that match
      the flags, and a scheduled run only while the valve is open. */
  predicate Valid(s: Controller) {
    Interlocked(s) && PinsAgree(s) && (s.scheduledRunActive ==> s.valveOn)
  }

  /** The state right after `__init__` and the start of `main_loop`: both
      actuators off, no scheduled run, no stall being timed, the loaded
      table, total and calibration, and a last second no clock can show, so
      that the first poll always ticks. */
  function Initial(times: seq<Slot>, totalLiters: real, kFactor: real): (s: Controller)
    ensures Valid(s) && !s.valveOn && !s.motorOn
    ensures !s.scheduledRunActive && s.flowStopTimerStart == 0
    ensures s.scheduledTimes == times && s.litersTotal == totalLiters
    ensures s.sensor.kFactor == kFactor && s.sensor.pulsesTotal == 0
    ensures forall now: Clock :: 0 <= now.second < 60 ==> now.second != s.lastSecond
  {
    Controller(false, false, 0, 0, false, 0, times, totalLiters, Sensor(kFactor, 0), -1)
  }

  /** `set_motor(state)`: turning the motor on while the valve is open is
      refused and changes nothing; otherwise the motor follows `state`. */
  function SetMotor(s: Controller, state: bool): (r: Controller)
    ensures state && s.valveOn ==> r == s
    ensures !(state && s.valveOn) ==> r.motorOn == state
    ensures r.valveOn == s.valveOn
    ensures r.(motorOn := s.motorOn, motorPin := s.motorPin) == s
    ensures Valid(s) ==> Valid(r)
  {
    if state && s.valveOn then s
    else s.(motorOn := state, motorPin := Level(state))
  }

  /** `set_valve(state)`: opening first switches a running motor off;
      closing, for whatever reason, ends any scheduled run. */
  function SetValve(s: Controller, state: bool): (r: Controller)
    ensures r.valveOn == state
    ensures state ==> !r.motorOn && r.scheduledRunActive == s.scheduledRunActive
    ensures !state ==> r.motorOn == s.motorOn && !r.scheduledRunActive
    ensures r.(valveOn := s.valveOn, valvePin := s.valvePin, motorOn := s.motorOn,
               motorPin := s.motorPin, scheduledRunActive := s.scheduledRunActive) == s
    ensures Valid(s) ==> Valid(r)
  {
    var s1 := if state && s.motorOn then SetMotor(s, false) else s;
    var s2 := s1.(valveOn := state, valvePin := Level(state));
    if !s2.valveOn then s2.(scheduledRunActive := false) else s2
  }

  /** A request made through `set_valve` or `set_motor`. */
  datatype Request = ValveRequest(on: bool) | MotorRequest(on: bool)

  function Apply(s: Controller, rq: Request): Controller {
    match rq
    case ValveRequest(on) => SetValve(s, on)
    case MotorRequest(on) => SetMotor(s, on)
  }

  function ApplyAll(s: Controller, rqs: seq<Request>): Controller
    decreases |rqs|
  {
    if |rqs| == 0 then s else ApplyAll(Apply(s, rqs[0]), rqs[1..])
  }

  /** No sequence of actuator requests ever has valve and motor on together. */
  lemma {:induction false} InterlockNeverViolated(s: Controller, rqs: seq<Request>)
    requires Valid(s)
    ensures Valid(ApplyAll(s, rqs))
    ensures Interlocked(ApplyAll(s, rqs))
    decreases |rqs|
  {
    if |rqs| > 0 {
      InterlockNeverViolated(Apply(s, rqs[0]), rqs[1..]);
    }
  }

  /** Whether the schedule asks for an opening at this clock reading. */
  predicate Due(s: Controller, now: Clock) {
    !s.valveOn && Slot(now.hour, now.minute) in s.scheduledTimes && now.second == 0
  }

  /** Step 3 of the tick: the scheduled opening. It opens only a closed
      valve, only on second 0 of a listed `[hour, minute]`, and then marks
      the run as scheduled with the shut-off timer cleared. */
  function ScheduleStep(s: Controller, now: Clock): (r: Controller)
    ensures Due(s, now) ==>
              r.valveOn && !r.motorOn && r.scheduledRunActive && r.flowStopTimerStart == 0
    ensures !Due(s, now) ==> r == s
    ensures r.scheduledTimes == s.scheduledTimes && r.litersTotal == s.litersTotal
    ensures r.sensor == s.sensor && r.lastSecond == s.lastSecond
    ensures Valid(s) ==> Valid(r)
  {
    if Due(s, now) then
      // set_valve(True) always leaves the valve open, so the source's
      // `if self.valve_on` re-check always passes.
      SetValve(s, true).(scheduledRunActive := true, flowStopTimerStart := 0)
    else s
  }

  /** The zero-flow shut-off guards only a scheduled run with the valve open. */
  predicate GuardActive(s: Controller) {
    s.valveOn && s.scheduledRunActive
  }

  /** Step 4 of the tick: the zero-flow shut-off. */
  function StallStep(c: Config, s: Controller, rateLpm: real, now: int): (r: Controller)
    ensures !GuardActive(s) ==> r == s
    ensures GuardActive(s) && rateLpm >= NoFlowLpm ==> r == s.(flowStopTimerStart := 0)
    ensures GuardActive(s) && rateLpm < NoFlowLpm && s.flowStopTimerStart == 0 ==>
              r == s.(flowStopTimerStart := now)
    ensures (GuardActive(s) && rateLpm < NoFlowLpm && s.flowStopTimerStart != 0
             && now - s.flowStopTimerStart < c.flowStopTimeout) ==> r == s
    ensures r.valveOn != s.valveOn <==>
              GuardActive(s) && rateLpm < NoFlowLpm && s.flowStopTimerStart != 0
              && now - s.flowStopTimerStart >= c.flowStopTimeout
    ensures r.valveOn != s.valveOn ==> r.flowStopTimerStart == 0 && !r.scheduledRunActive
    ensures r.motorOn == s.motorOn && r.scheduledTimes == s.scheduledTimes
    ensures r.litersTotal == s.litersTotal && r.sensor == s.sensor && r.lastSecond == s.lastSecond
    ensures Valid(s) ==> Valid(r)
  {
    if GuardActive(s) then
      if rateLpm < NoFlowLpm then
        if s.flowStopTimerStart == 0 then s.(flowStopTimerStart := now)
        else if now - s.flowStopTimerStart >= c.flowStopTimeout then
          SetValve(s, false).(flowStopTimerStart := 0)
        else s
      else s.(flowStopTimerStart := 0)
    else s
  }

  /** The flow rate a tick computes from the pulses pending at its start. */
  function TickRate(s: Controller): real
    requires s.sensor.kFactor != 0.0
  {
    CalculateFlow(s.sensor, s.sensor.pulsesTotal, 1).rateLpm
  }

  /** The body run once per new second: drain the counter, convert and
      accumulate, then the scheduled opening, then the zero-flow
      shut-off. A zero k_factor makes `calculate_flow` raise after the
      drain; the loop catches it, so the drained pulses are lost and the
      rest of the tick is skipped. */
  function Tick(c: Config, s: Controller, now: Clock): (r: Controller)
    ensures r.sensor.pulsesTotal == 0 && r.sensor.kFactor == s.sensor.kFactor
    ensures s.sensor.kFactor != 0.0 ==>
              (r.litersTotal - s.litersTotal) * s.sensor.kFactor == s.sensor.pulsesTotal as real
    ensures s.sensor.kFactor == 0.0 ==> r == s.(sensor := s.sensor.(pulsesTotal := 0))
    ensures s.sensor.kFactor > 0.0 ==> r.litersTotal >= s.litersTotal
    ensures r.scheduledTimes == s.scheduledTimes && r.lastSecond == s.lastSecond
    ensures r.motorOn ==> s.motorOn
    ensures s.valveOn && !s.scheduledRunActive ==> r.valveOn && !r.scheduledRunActive
    ensures !s.valveOn && r.valveOn ==> Slot(now.hour, now.minute) in s.scheduledTimes && now.second == 0
    ensures s.sensor.kFactor != 0.0 && Due(s, now) ==> r.valveOn && r.scheduledRunActive
    ensures s.sensor.kFactor != 0.0 && Due(s, now) ==>
              r.flowStopTimerStart == (if TickRate(s) < NoFlowLpm then now.timestamp else 0)
    ensures !Due(s, now) ==> r.motorOn == s.motorOn
    ensures !Due(s, now) && !GuardActive(s) ==> r.(litersTotal := s.litersTotal, sensor := s.sensor) == s
    ensures s.sensor.kFactor != 0.0 ==>
              var rate := TickRate(s);
              && (s.valveOn && !r.valveOn <==>
                    GuardActive(s) && rate < NoFlowLpm && s.flowStopTimerStart != 0
                    && now.timestamp - s.flowStopTimerStart >= c.flowStopTimeout)
              && (GuardActive(s) && rate >= NoFlowLpm ==> r.valveOn && r.flowStopTimerStart == 0)
              && (GuardActive(s) && rate < NoFlowLpm && s.flowStopTimerStart == 0 ==>
                    r.valveOn && r.flowStopTimerStart == now.timestamp)
              && (GuardActive(s) && rate < NoFlowLpm && s.flowStopTimerStart != 0
                  && now.timestamp - s.flowStopTimerStart < c.flowStopTimeout ==>
                    r.valveOn && r.flowStopTimerStart == s.flowStopTimerStart)
    ensures Valid(s) ==> Valid(r)
  {
    var (fs, pulses) := ReadAndResetPulses(s.sensor);
    var s1 := s.(sensor := fs);
    if fs.kFactor == 0.0 then s1
    else
      var flow := CalculateFlow(fs, pulses, 1);
      assert flow == CalculateFlow(s.sensor, s.sensor.pulsesTotal, 1);
      var s2 := s1.(litersTotal := s1.litersTotal + flow.litersAdded);
      var s3 := ScheduleStep(s2, now);
      assert Due(s2, now) == Due(s, now);
      StallStep(c, s3, flow.rateLpm, now.timestamp)
  }

  /** One pass of `main_loop`: the body runs only when the second has
      changed since the previous pass. */
  function Poll(c: Config, s: Controller, now: Clock): (r: Controller)
    ensures now.second == s.lastSecond ==> r == s
    ensures now.second != s.lastSecond ==> r == Tick(c, s.(lastSecond := now.second), now)
    ensures r.lastSecond == now.second
    ensures r.sensor.kFactor == s.sensor.kFactor
    ensures s.sensor.kFactor > 0.0 ==> r.litersTotal >= s.litersTotal
    ensures Valid(s) ==> Valid(r)
  {
    if now.second != s.lastSecond then Tick(c, s.(lastSecond := now.second), now) else s
  }

  /** The loop acts at most once per second: polling again within the
      same second changes nothing, so a schedule slot cannot fire twice. */
  lemma PollOncePerSecond(c: Config, s: Controller, now: Clock, later: Clock)
    requires later.second == now.second
    ensures Poll(c, Poll(c, s, now), later) == Poll(c, s, now)
  {
  }

  /** A reading of the zero-flow shut-off: rate and timestamp of one tick. */
  datatype Sample = Sample(rateLpm: real, timestamp: int)

  /** The shut-off fed a run of readings, oldest first. */
  function StallRun(c: Config, s: Controller, samples: seq<Sample>): Controller
    decreases |samples|
  {
    if |samples| == 0 then s
    else
      var last := samples[|samples| - 1];
      StallStep(c, StallRun(c, s, samples[..|samples| - 1]), last.rateLpm, last.timestamp)
  }

  /** Start of the trailing stretch of no-flow readings (|samples| if the
      latest reading had flow). */
  function NoFlowSince(samples: seq<Sample>): (i: nat)
    ensures i <= |samples|
    ensures forall k :: i <= k < |samples| ==> samples[k].rateLpm < NoFlowLpm
    ensures i > 0 ==> samples[i - 1].rateLpm >= NoFlowLpm
    decreases |samples|
  {
    if |samples| == 0 || samples[|samples| - 1].rateLpm >= NoFlowLpm then |samples|
    else NoFlowSince(samples[..|samples| - 1])
  }

  /** Readings i..j are all below the no-flow threshold and span at least
      the timeout. */
  predicate SustainedNoFlow(c: Config, samples: seq<Sample>, i: int, j: int) {
    0 <= i <= j < |samples|
    && (forall k :: i <= k <= j ==> samples[k].rateLpm < NoFlowLpm)
    && samples[j].timestamp - samples[i].timestamp >= c.flowStopTimeout
  }

  /** During a scheduled run (timer cleared at its start), the shut-off
      times exactly the current no-flow stretch: while the valve stays
      open the timer holds the timestamp of the stretch's first reading
      and no reading of the stretch has reached the timeout yet; once it
      has closed, some stretch of no-flow readings spanned the timeout. */
  lemma {:induction false} StallClosesOnlyAfterSustainedNoFlow(c: Config, s: Controller, samples: seq<Sample>)
    requires GuardActive(s) && s.flowStopTimerStart == 0
    requires forall k :: 0 <= k < |samples| ==> samples[k].timestamp > 0
    ensures var r := StallRun(c, s, samples);
            var i := NoFlowSince(samples);
            r.valveOn ==>
              && r.scheduledRunActive
              && r.flowStopTimerStart == (if i == |samples| then 0 else samples[i].timestamp)
              && forall k :: i < k < |samples| ==> samples[k].timestamp - samples[i].timestamp < c.flowStopTimeout
    ensures var r := StallRun(c, s, samples);
            !r.valveOn ==> exists i, j :: SustainedNoFlow(c, samples, i, j)
    decreases |samples|
  {
    if |samples| > 0 {
      var n := |samples| - 1;
      var prefix := samples[..n];
      StallClosesOnlyAfterSustainedNoFlow(c, s, prefix);
      var p := StallRun(c, s, prefix);
      var last := samples[n];
      var i0 := NoFlowSince(prefix);
      if !p.valveOn {
        var i, j :| SustainedNoFlow(c, prefix, i, j);
        assert SustainedNoFlow(c, samples, i, j);
      } else if last.rateLpm < NoFlowLpm {
        assert NoFlowSince(samples) == i0;
        if p.flowStopTimerStart != 0 && last.timestamp - p.flowStopTimerStart >= c.flowStopTimeout {
          assert SustainedNoFlow(c, samples, i0, n);
        }
      }
    }
  }
}

=== FILE: ble_system.dfy ===
/** The BLE variant as a whole: pulse edges, passes of the main loop and
    BLE writes, interleaved in any order, each taken as one atomic step. */
module BleSystem {
  import opened FlowSensor
  import opened BleController
  import opened BleCommands

  datatype Event =
    | PulseEdge(lockAcquired: bool)
    | LoopPass(now: Clock)
    | BleWrite(text: string, saved: bool)

  function Step(c: Config, s: Controller, e: Event): Controller {
    match e
    case PulseEdge(acquired) => s.(sensor := IrqHandler(s.sensor, acquired))
    case LoopPass(now) => Poll(c, s, now)
    case BleWrite(text, saved) => ProcessBleCommand(s, text, saved).0
  }

  function Run(c: Config, s: Controller, es: seq<Event>): Controller
    decreases |es|
  {
    if |es| == 0 then s else Run(c, Step(c, s, es[0]), es[1..])
  }

  /** Whatever happens, in whatever order, valve and motor are never on
      together, the pins follow the flags, and a scheduled run implies an
      open valve. */
  lemma {:induction false} InterlockAlwaysHolds(c: Config, s: Controller, es: seq<Event>)
    requires Valid(s)
    ensures Valid(Run(c, s, es))
    decreases |es|
  {
    if |es| > 0 {
      InterlockAlwaysHolds(c, Step(c, s, es[0]), es[1..]);
    }
  }

  predicate NoResetCommand(es: seq<Event>) {
    forall i :: 0 <= i < |es| && es[i].BleWrite? ==> ParseCommand(es[i].text) != ResetFlow
  }

  /** With a positive calibration, the litre total never decreases unless
      a RESET_FLOW command arrives. */
  lemma {:induction false} TotalOnlyGrowsWithoutReset(c: Config, s: Controller, es: seq<Event>)
    requires s.sensor.kFactor > 0.0
    requires NoResetCommand(es)
    ensures Run(c, s, es).litersTotal >= s.litersTotal
    decreases |es|
  {
    if |es| > 0 {
      var s1 := Step(c, s, es[0]);
      assert s1.litersTotal >= s.litersTotal && s1.sensor.kFactor == s.sensor.kFactor by {
        assert es[0].BleWrite? ==> ParseCommand(es[0].text) != ResetFlow;
      }
      assert NoResetCommand(es[1..]) by {
        forall i | 0 <= i < |es[1..]| && es[1..][i].BleWrite?
          ensures ParseCommand(es[1..][i].text) != ResetFlow
        {
          assert es[1..][i] == es[i + 1];
        }
      }
      TotalOnlyGrowsWithoutReset(c, s1, es[1..]);
    }
  }

  /** Feeding one more reading is one more shut-off step. */
  lemma StallRunSnoc(c: Config, s: Controller, samples: seq<Sample>, x: Sample)
    ensures StallRun(c, s, samples + [x]) == StallStep(c, StallRun(c, s, samples), x.rateLpm, x.timestamp)
  {
    assert (samples + [x])[..|samples|] == samples;
  }

  /** The shut-off example with a 5-second timeout: no flow from second 1
      to second 6 closes the valve at second 6. */
  lemma StallTimeoutExample(s: Controller)
    requires GuardActive(s) && s.flowStopTimerStart == 0
    ensures !StallRun(Config(5), s, [Sample(0.0, 1), Sample(0.0, 2), Sample(0.0, 3),
                                     Sample(0.0, 4), Sample(0.0, 5), Sample(0.0, 6)]).valveOn
  {
    var c := Config(5);
    var timing := s.(flowStopTimerStart := 1);
    var q1 := [Sample(0.0, 1)];
    var q2 := q1 + [Sample(0.0, 2)];
    var q3 := q2 + [Sample(0.0, 3)];
    var q4 := q3 + [Sample(0.0, 4)];
    var q5 := q4 + [Sample(0.0, 5)];
    var q6 := q5 + [Sample(0.0, 6)];
    StallRunSnoc(c, s, [], Sample(0.0, 1));
    assert [] + q1 == q1;
    assert StallRun(c, s, q1) == timing;
    StallRunSnoc(c, s, q1, Sample(0.0, 2));
    assert StallRun(c, s, q2) == timing;
    StallRunSnoc(c, s, q2, Sample(0.0, 3));
    assert StallRun(c, s, q3) == timing;
    StallRunSnoc(c, s, q3, Sample(0.0, 4));
    assert StallRun(c, s, q4) == timing;
    StallRunSnoc(c, s, q4, Sample(0.0, 5));
    assert StallRun(c, s, q5) == timing;
    StallRunSnoc(c, s, q5, Sample(0.0, 6));
    assert q6 == [Sample(0.0, 1), Sample(0.0, 2), Sample(0.0, 3), Sample(0.0, 4), Sample(0.0, 5), Sample(0.0, 6)];
  }

  /** The same readings with flow at second 3: the count restarts at
      second 4, so the valve is still open at second 6. */
  lemma StallFlowRestartExample(s: Controller)
    requires GuardActive(s) && s.flowStopTimerStart == 0
    ensures StallRun(Config(5), s, [Sample(0.0, 1), Sample(0.0, 2), Sample(1.0, 3),
                                    Sample(0.0, 4), Sample(0.0, 5), Sample(0.0, 6)]).valveOn
  {
    var c := Config(5);
    var timing := s.(flowStopTimerStart := 1);
    var restarted := s.(flowStopTimerStart := 4);
    var q1 := [Sample(0.0, 1)];
    var q2 := q1 + [Sample(0.0, 2)];
    var q3 := q2 + [Sample(1.0, 3)];
    var q4 := q3 + [Sample(0.0, 4)];
    var q5 := q4 + [Sample(0.0, 5)];
    var q6 := q5 + [Sample(0.0, 6)];
    StallRunSnoc(c, s, [], Sample(0.0, 1));
    assert [] + q1 == q1;
    assert StallRun(c, s, q1) == timing;
    StallRunSnoc(c, s, q1, Sample(0.0, 2));
    assert StallRun(c, s, q2) == timing;
    StallRunSnoc(c, s, q2, Sample(1.0, 3));
    assert StallRun(c, s, q3) == s;
    StallRunSnoc(c, s, q3, Sample(0.0, 4));
    assert StallRun(c, s, q4) == restarted;
    StallRunSnoc(c, s, q4, Sample(0.0, 5));
    assert StallRun(c, s, q5) == restarted;
    StallRunSnoc(c, s, q5, Sample(0.0, 6));
    assert StallRun(c, s, q6) == restarted;
    assert q6 == [Sample(0.0, 1), Sample(0.0, 2), Sample(1.0, 3), Sample(0.0, 4), Sample(0.0, 5), Sample(0.0, 6)];
  }
}

=== FILE: flow_sensor.dfy ===
/** The flow sensor of the BLE variant (mainorig.py, class FlowSensor): a
    pulse counter incremented by the edge interrupt and drained once per
    control-loop second, and the pure conversion of a pulse count into
    litres and litres per minute. */
module FlowSensor {

  /** `k_factor` is the calibration in pulses per litre; `pulsesTotal` is
      the counter shared between the interrupt and the loop. */
  datatype Sensor = Sensor(kFactor: real, pulsesTotal: nat)

  /** What `calculate_flow` returns: instantaneous rate (L/min) and volume (L). */
  datatype Flow = Flow(rateLpm: real, litersAdded: real)

  /** The interrupt handler for one rising edge. It only counts when it
      obtains the lock without waiting; an edge that finds the lock taken
      (the loop is draining) is dropped. */
  function IrqHandler(fs: Sensor, lockAcquired: bool): (r: Sensor)
    ensures r.kFactor == fs.kFactor
    ensures lockAcquired ==> r.pulsesTotal == fs.pulsesTotal + 1
    ensures !lockAcquired ==> r == fs
  {
    if lockAcquired then fs.(pulsesTotal := fs.pulsesTotal + 1) else fs
  }

  /** The loop's drain: under the lock, read the count and clear it. */
  function ReadAndResetPulses(fs: Sensor): (r: (Sensor, nat))
    ensures r.1 == fs.pulsesTotal
    ensures r.0.pulsesTotal == 0 && r.0.kFactor == fs.kFactor
  {
    (fs.(pulsesTotal := 0), fs.pulsesTotal)
  }

  /** The counter after a run of edges, each marked with whether the
      handler obtained the lock. */
  function Edges(fs: Sensor, acquired: seq<bool>): Sensor
    decreases |acquired|
  {
    if |acquired| == 0 then fs else Edges(IrqHandler(fs, acquired[0]), acquired[1..])
  }

  function CountAcquired(acquired: seq<bool>): nat
    decreases |acquired|
  {
    if |acquired| == 0 then 0
    else (if acquired[0] then 1 else 0) + CountAcquired(acquired[1..])
  }

  /** A drain returns exactly the edges counted since the previous drain
      (one per edge that got the lock) and leaves the counter at zero. */
  lemma {:induction false} DrainReturnsCountedEdges(fs: Sensor, acquired: seq<bool>)
    ensures ReadAndResetPulses(Edges(fs, acquired)).1 == fs.pulsesTotal + CountAcquired(acquired)
    ensures ReadAndResetPulses(Edges(fs, acquired)).0.pulsesTotal == 0
    decreases |acquired|
  {
    if |acquired| > 0 {
      DrainReturnsCountedEdges(IrqHandler(fs, acquired[0]), acquired[1..]);
    }
  }

  /** `calculate_flow(pulses, seconds_passed)`: the volume is always
      pulses / k_factor; the rate is (pulses / seconds) * (60 / k_factor)
      when both are positive and 0.0 otherwise. Python raises on a zero
      k_factor, hence the precondition. */
  function CalculateFlow(fs: Sensor, pulses: int, secondsPassed: int): (r: Flow)
    requires fs.kFactor != 0.0
    ensures r.litersAdded * fs.kFactor == pulses as real
    ensures pulses <= 0 || secondsPassed <= 0 ==> r.rateLpm == 0.0
    ensures pulses > 0 && secondsPassed > 0 ==>
              r.rateLpm * secondsPassed as real == 60.0 * r.litersAdded
    ensures fs.kFactor > 0.0 ==> (r.rateLpm > 0.0 <==> pulses > 0 && secondsPassed > 0)
  {
    var liters := pulses as real / fs.kFactor;
    var rate :=
      if secondsPassed > 0 && pulses > 0
      then (pulses as real / secondsPassed as real) * (60.0 / fs.kFactor)
      else 0.0;
    RateTimesSeconds(pulses as real, secondsPassed as real, fs.kFactor);
    Flow(rate, liters)
  }

  lemma RateTimesSeconds(p: real, t: real, k: real)
    requires k != 0.0
    ensures t != 0.0 ==> (p / t) * (60.0 / k) * t == 60.0 * (p / k)
    ensures (p / k) * k == p
    ensures p > 0.0 && t > 0.0 && k > 0.0 ==> (p / t) * (60.0 / k) > 0.0
  {
  }

  /** The calibration example: 450 pulses in one second at 450 pulses per
      litre is one litre, at a rate of 60 L/min. */
  lemma CalibrationExample()
    ensures CalculateFlow(Sensor(450.0, 0), 450, 1) == Flow(60.0, 1.0)
  {
  }

  function SumPulses(ps: seq<nat>): nat
    decreases |ps|
  {
    if |ps| == 0 then 0 else ps[0] + SumPulses(ps[1..])
  }

  /** The litres added by a run of per-second drains. */
  function LitersOfDrains(fs: Sensor, ps: seq<nat>): real
    requires fs.kFactor != 0.0
    decreases |ps|
  {
    if |ps| == 0 then 0.0 else CalculateFlow(fs, ps[0], 1).litersAdded + LitersOfDrains(fs, ps[1..])
  }

  /** `liters` is exactly `pulses` at this calibration. */
  predicate Calibrated(kFactor: real, liters: real, pulses: real) {
    liters * kFactor == pulses
  }

  lemma CalibratedSum(k: real, a: real, b: real, x: real, y: real)
    requires Calibrated(k, a, x) && Calibrated(k, b, y)
    ensures Calibrated(k, a + b, x + y)
  {
  }

  /** However the pulses are spread over seconds, the litres accumulated
      equal the total pulse count divided by k_factor. */
  lemma {:induction false} AccumulationIsSplitInvariant(fs: Sensor, ps: seq<nat>)
    requires fs.kFactor != 0.0
    ensures Calibrated(fs.kFactor, LitersOfDrains(fs, ps), SumPulses(ps) as real)
    decreases |ps|
  {
    if |ps| > 0 {
      AccumulationIsSplitInvariant(fs, ps[1..]);
      var first := CalculateFlow(fs, ps[0], 1).litersAdded;
      assert Calibrated(fs.kFactor, first, ps[0] as real);
      CalibratedSum(fs.kFactor, first, LitersOfDrains(fs, ps[1..]), ps[0] as real, SumPulses(ps[1..]) as real);
    }
  }
}

=== FILE: http_controller.dfy ===
/** The HTTP/asyncio variant's SystemController (main.py): the motor/valve
    control logic, the hard-coded weekday/weekend schedule with its
    open-time limit, the tank-level clamp and the request dispatch. Pins
    are active-low (0 = on). Each call of `control_logic` is taken as one
    atomic step here; the two halves of a valve opening that awaits in
    between are modelled separately in HttpSystem. */
module HttpController {
  import opened PyStr

  type PinLevel = x: int | 0 <= x <= 1

  /** FLOW_TIMEOUT: seconds the valve may stay open before the no-pulse test applies. */
  const FlowTimeout: int := 300
  const TankHeightCm: real := 200.0
  /** The motor may start only above this tank level (percent). */
  const MotorMinLevelPct: real := 10.0

  /** One reading of `time.localtime(...)` and `time.time()`; weekday 0 is Monday. */
  datatype LocalTime = LocalTime(hour: int, minute: int, second: int, weekday: int, timestamp: int)

  /** `alert_msg`: empty, the low-level refusal, or the end-of-fill notice
      stamped with the time it was raised. */
  datatype Alert = NoAlert | LowLevelForMotor | FillFinished(at: LocalTime)

  datatype Controller = Controller(
    valveOn: bool,
    motorOn: bool,
    valvePin: PinLevel,
    motorPin: PinLevel,
    alert: Alert,
    valveOpenTime: int,
    timeSynced: bool,
    waterLevelPct: real,
    litersTotal: real,
    pulses: nat)

  /** Active-low drive: the pin is 0 exactly when the actuator is on. */
  function Drive(on: bool): PinLevel {
    if on then 0 else 1
  }

  predicate Interlocked(s: Controller) {
    !(s.valveOn && s.motorOn)
  }

  predicate PinsAgree(s: Controller) {
    s.valvePin == Drive(s.valveOn) && s.motorPin == Drive(s.motorOn)
  }

  predicate Valid(s: Controller) {
    Interlocked(s) && PinsAgree(s)
  }

  /** The state right after `__init__`: both pins high (off), no alert,
      no pending pulses, an empty tank reading, the loaded total, and the
      clock not yet synced. */
  function Initial(litersTotal: real): (s: Controller)
    ensures Valid(s) && !s.valveOn && !s.motorOn && !s.timeSynced
    ensures s.litersTotal == litersTotal && s.pulses == 0 && s.alert == NoAlert
    ensures s.waterLevelPct == 0.0 && s.valveOpenTime == 0
  {
    Controller(false, false, 1, 1, NoAlert, 0, false, 0.0, litersTotal, 0)
  }

  /** `_flow_handler`: one rising edge of the flow sensor. */
  function FlowHandler(s: Controller): (r: Controller)
    ensures r.pulses == s.pulses + 1
    ensures r.(pulses := s.pulses) == s
  {
    s.(pulses := s.pulses + 1)
  }

  function Min(a: real, b: real): real {
    if a <= b then a else b
  }

  function Max(a: real, b: real): real {
    if a >= b then a else b
  }

  /** A percentage clipped to the range 0 to 100. */
  function Clamp(x: real): (r: real)
    ensures 0.0 <= r <= 100.0
    ensures 0.0 <= x <= 100.0 ==> r == x
    ensures x < 0.0 ==> r == 0.0
    ensures x > 100.0 ==> r == 100.0
  {
    Max(0.0, Min(100.0, x))
  }

  /** `get_tank_level` after the echo has been timed: a negative duration
      (timeout) reads as empty; otherwise the distance to the water,
      in cm at 29.1 us per cm each way, gives the fill percentage. */
  function TankLevel(echoUs: int): (pct: real)
    ensures 0.0 <= pct <= 100.0
    ensures echoUs < 0 ==> pct == 0.0
    ensures echoUs == 0 ==> pct == 100.0
  {
    if echoUs < 0 then 0.0
    else
      var dist := (echoUs as real / 2.0) / 29.1;
      Clamp(((TankHeightCm - dist) / TankHeightCm) * 100.0)
  }

  /** A longer echo means the water is further away: the level reading
      never rises as the echo time grows. */
  lemma TankLevelMonotone(a: int, b: int)
    requires 0 <= a <= b
    ensures TankLevel(b) <= TankLevel(a)
  {
  }

  /** The first half of `control_logic('valve', True)`: a valve opening
      first stops a running motor, before it pauses. */
  function StopMotorForValve(s: Controller): (r: Controller)
    ensures !r.motorOn && r.valveOn == s.valveOn
    ensures r.(motorOn := s.motorOn, motorPin := s.motorPin) == s
    ensures Valid(s) ==> Valid(r)
  {
    if s.motorOn then s.(motorPin := Drive(false), motorOn := false) else s
  }

  /** The second half of a valve opening, after the pause, with the motor
      re-checked first: the valve opens with the motor off, the opening
      time is recorded and any alert cleared. */
  function OpenValve(s: Controller, now: int): (r: Controller)
    ensures r.valveOn && !r.motorOn && r.valveOpenTime == now && r.alert == NoAlert
    ensures PinsAgree(s) ==> Valid(r)
    ensures r.(valveOn := s.valveOn, valvePin := s.valvePin, motorOn := s.motorOn,
               motorPin := s.motorPin, valveOpenTime := s.valveOpenTime, alert := s.alert) == s
  {
    var s1 := StopMotorForValve(s);
    s1.(valvePin := Drive(true), valveOn := true, valveOpenTime := now, alert := NoAlert)
  }

  /** `control_logic(target, action)` as one step; `now` is `time.time()`.
      Opening the valve stops the motor first. Starting the motor needs a
      tank above 10 % and then closes an open valve first; below that it
      only raises the low-level alert. Turning something off acts on the
      valve for 'valve' and on the motor for any other target. */
  function ControlLogic(s: Controller, target: string, action: bool, now: int): (r: Controller)
    ensures target == "valve" && action ==>
              r.valveOn && !r.motorOn && r.valveOpenTime == now && r.alert == NoAlert
    ensures target == "motor" && action && s.waterLevelPct > MotorMinLevelPct ==>
              r.motorOn && !r.valveOn && r.alert == s.alert && r.valveOpenTime == s.valveOpenTime
    ensures target == "motor" && action && s.waterLevelPct <= MotorMinLevelPct ==>
              r == s.(alert := LowLevelForMotor)
    ensures action && target != "valve" && target != "motor" ==> r == s
    ensures !action && target == "valve" ==> !r.valveOn && r.motorOn == s.motorOn
    ensures !action && target != "valve" ==> !r.motorOn && r.valveOn == s.valveOn
    ensures !action ==> r.alert == s.alert && r.valveOpenTime == s.valveOpenTime
    ensures r.timeSynced == s.timeSynced && r.waterLevelPct == s.waterLevelPct
    ensures r.litersTotal == s.litersTotal && r.pulses == s.pulses
    ensures Interlocked(s) ==> Interlocked(r)
    ensures PinsAgree(s) ==> PinsAgree(r)
  {
    if target == "valve" && action then
      OpenValve(StopMotorForValve(s), now)
    else if target == "motor" && action then
      if s.waterLevelPct > MotorMinLevelPct then
        var s1 := if s.valveOn then s.(valvePin := Drive(false), valveOn := false) else s;
        s1.(motorPin := Drive(true), motorOn := true)
      else s.(alert := LowLevelForMotor)
    else if !action then
      if target == "valve" then s.(valvePin := Drive(false), valveOn := false)
      else s.(motorPin := Drive(false), motorOn := false)
    else s
  }

  /** Any sequence of `control_logic` calls keeps valve and motor apart. */
  datatype Call = Call(target: string, action: bool, now: int)

  function ControlAll(s: Controller, calls: seq<Call>): Controller
    decreases |calls|
  {
    if |calls| == 0 then s
    else ControlAll(ControlLogic(s, calls[0].target, calls[0].action, calls[0].now), calls[1..])
  }

  lemma {:induction false} ControlLogicKeepsInterlock(s: Controller, calls: seq<Call>)
    requires Valid(s)
    ensures Valid(ControlAll(s, calls))
    decreases |calls|
  {
    if |calls| > 0 {
      ControlLogicKeepsInterlock(ControlLogic(s, calls[0].target, calls[0].action, calls[0].now), calls[1..]);
    }
  }

  /** The first fill of the day is at 7 on weekdays (0..4) and 8 at weekends. */
  function StartHour(weekday: int): int {
    if weekday >= 5 then 8 else 7
  }

  /** The hard-coded schedule: on the hour at the start hour, 12 and 19. */
  predicate ScheduleDue(now: LocalTime) {
    now.minute == 0 && now.second == 0 && now.hour in [StartHour(now.weekday), 12, 19]
  }

  /** `check_system` with the open-time limit corrected: the valve closes
      when it has been open longer than FLOW_TIMEOUT and no pulse arrived
      since the previous tick, neither among the `drained` pulses the tick
      just moved into the total nor on the counter since. */
  function CheckSystem(s: Controller, now: LocalTime, drained: nat): (r: Controller)
    ensures !s.timeSynced ==> r == s
    ensures s.timeSynced && !s.valveOn ==> (r.valveOn <==> ScheduleDue(now))
    ensures s.timeSynced && s.valveOn ==>
              (!r.valveOn <==> now.timestamp - s.valveOpenTime > FlowTimeout && drained == 0 && s.pulses == 0)
    ensures s.valveOn && !r.valveOn ==> r.alert == FillFinished(now) && r.motorOn == s.motorOn
    ensures s.timeSynced && !s.valveOn && !ScheduleDue(now) ==> r == s
    ensures s.timeSynced && !s.valveOn && ScheduleDue(now) ==> r == ControlLogic(s, "valve", true, now.timestamp)
    ensures s.timeSynced && s.valveOn && r.valveOn ==> r == s
    ensures s.timeSynced && s.valveOn && !r.valveOn ==>
              r == ControlLogic(s, "valve", false, now.timestamp).(alert := FillFinished(now))
    ensures r.motorOn ==> s.motorOn
    ensures r.litersTotal == s.litersTotal && r.pulses == s.pulses && r.waterLevelPct == s.waterLevelPct
    ensures r.timeSynced == s.timeSynced
    ensures Valid(s) ==> Valid(r)
  {
    if !s.timeSynced then s
    else
      var s1 := if ScheduleDue(now) && !s.valveOn then ControlLogic(s, "valve", true, now.timestamp) else s;
      if s1.valveOn && now.timestamp - s1.valveOpenTime > FlowTimeout && drained == 0 && s1.pulses == 0 then
        ControlLogic(s1, "valve", false, now.timestamp).(alert := FillFinished(now))
      else s1
  }

  /** `sync_time`: `ok` is whether one of the NTP servers answered. The
      first server that answers marks the clock synced; a server that
      fails is skipped, and when every one fails the flag is left as it
      was. Nothing else changes. */
  function SyncTime(s: Controller, ok: bool): (r: Controller)
    ensures r.timeSynced <==> s.timeSynced || ok
    ensures r.(timeSynced := s.timeSynced) == s
  {
    if ok then s.(timeSynced := true) else s
  }

  /** The POST handling of `serve_client`: toggles go through
      `control_logic` with the negated current state; a flow reset zeroes
      the total; anything else (and every GET) changes nothing. */
  function ServeClient(s: Controller, httpMethod: string, path: string, now: int): (r: Controller)
    ensures httpMethod != "POST" ==> r == s
    ensures httpMethod == "POST" && Contains(path, "/valve/toggle") ==>
              r == ControlLogic(s, "valve", !s.valveOn, now) && r.valveOn == !s.valveOn
    ensures httpMethod == "POST" && !Contains(path, "/valve/toggle") && Contains(path, "/motor/toggle") ==>
              r == ControlLogic(s, "motor", !s.motorOn, now)
              && (r.motorOn == !s.motorOn <==> s.motorOn || s.waterLevelPct > MotorMinLevelPct)
    ensures (httpMethod == "POST" && !Contains(path, "/valve/toggle") && !Contains(path, "/motor/toggle")
             && Contains(path, "/flow/reset")) ==> r == s.(litersTotal := 0.0)
    ensures (httpMethod == "POST" && !Contains(path, "/valve/toggle") && !Contains(path, "/motor/toggle")
             && !Contains(path, "/flow/reset")) ==> r == s
    ensures r.litersTotal != s.litersTotal ==> r.litersTotal == 0.0
    ensures r.pulses == s.pulses && r.timeSynced == s.timeSynced
    ensures Valid(s) ==> Valid(r)
  {
    if httpMethod == "POST" then
      if Contains(path, "/valve/toggle") then ControlLogic(s, "valve", !s.valveOn, now)
      else if Contains(path, "/motor/toggle") then ControlLogic(s, "motor", !s.motorOn, now)
      else if Contains(path, "/flow/reset") then s.(litersTotal := 0.0)
      else s
    else s
  }

  /** The drain in `background_tasks`: pending pulses are converted into
      litres and the counter cleared; with no pulses nothing changes.
      Python raises on a zero K_FACTOR only when there is something to divide. */
  function DrainPulses(kFactor: real, s: Controller): (r: (Controller, nat))
    requires s.pulses > 0 ==> kFactor != 0.0
    ensures r.1 == s.pulses && r.0.pulses == 0
    ensures s.pulses == 0 ==> r.0 == s
    ensures s.pulses > 0 ==> (r.0.litersTotal - s.litersTotal) * kFactor == s.pulses as real
    ensures r.0.(litersTotal := s.litersTotal, pulses := s.pulses) == s
  {
    if s.pulses > 0 then
      var added := s.pulses as real / kFactor;
      assert added * kFactor == s.pulses as real;
      (s.(litersTotal := s.litersTotal + added, pulses := 0), s.pulses)
    else (s, 0)
  }
}

=== FILE: http_system.dfy ===
/** The HTTP variant as a whole (main.py): the once-a-second background
    pass, the flow interrupt, web requests, clock syncs and the two halves
    of a valve opening that pauses for two seconds, interleaved in any
    order. Also the two places where the code as written departs from
    what it evidently intends, each next to its corrected form. */
module HttpSystem {
  import opened PyStr
  import opened HttpController

  /** `check_system` as written: the no-flow test reads the pulse counter,
      which the background pass cleared just before calling it. */
  function CheckSystemAsWritten(s: Controller, now: LocalTime): (r: Controller)
    ensures !s.timeSynced ==> r == s
    ensures s.timeSynced && !s.valveOn ==> (r.valveOn <==> ScheduleDue(now))
    ensures s.timeSynced && s.valveOn ==>
              (!r.valveOn <==> now.timestamp - s.valveOpenTime > FlowTimeout && s.pulses == 0)
    ensures s.timeSynced && !s.valveOn && !ScheduleDue(now) ==> r == s
    ensures s.timeSynced && !s.valveOn && ScheduleDue(now) ==> r == ControlLogic(s, "valve", true, now.timestamp)
    ensures s.timeSynced && s.valveOn && r.valveOn ==> r == s
    ensures s.timeSynced && s.valveOn && !r.valveOn ==>
              r == ControlLogic(s, "valve", false, now.timestamp).(alert := FillFinished(now))
    ensures r.timeSynced == s.timeSynced && r.pulses == s.pulses
    ensures r.litersTotal == s.litersTotal && r.waterLevelPct == s.waterLevelPct
    ensures r.motorOn ==> s.motorOn
    ensures Valid(s) ==> Valid(r)
  {
    if !s.timeSynced then s
    else
      var s1 := if ScheduleDue(now) && !s.valveOn then ControlLogic(s, "valve", true, now.timestamp) else s;
      if s1.valveOn && now.timestamp - s1.valveOpenTime > FlowTimeout && s1.pulses == 0 then
        ControlLogic(s1, "valve", false, now.timestamp).(alert := FillFinished(now))
      else s1
  }

  /** One pass of `background_tasks` as written: read the level, drain
      the counter into the total, then `check_system`. `lateEdges` are the
      edges that arrive between the drain and the counter read. */
  function BackgroundStepAsWritten(kFactor: real, s: Controller, now: LocalTime, echoUs: int, lateEdges: nat): (r: Controller)
    requires s.pulses > 0 ==> kFactor != 0.0
    ensures r.waterLevelPct == TankLevel(echoUs) && r.pulses == lateEdges
    ensures s.pulses == 0 ==> r.litersTotal == s.litersTotal
    ensures s.pulses > 0 ==> (r.litersTotal - s.litersTotal) * kFactor == s.pulses as real
    ensures r.timeSynced == s.timeSynced
    ensures s.timeSynced && !s.valveOn ==> (r.valveOn <==> ScheduleDue(now))
    ensures s.timeSynced && s.valveOn ==>
              (!r.valveOn <==> now.timestamp - s.valveOpenTime > FlowTimeout && lateEdges == 0)
    ensures var base := r.(waterLevelPct := s.waterLevelPct, litersTotal := s.litersTotal, pulses := s.pulses);
            && (!s.timeSynced || (!s.valveOn && !ScheduleDue(now)) || (s.valveOn && r.valveOn) ==> base == s)
            && (s.timeSynced && !s.valveOn && ScheduleDue(now) ==> base == ControlLogic(s, "valve", true, now.timestamp))
            && (s.timeSynced && s.valveOn && !r.valveOn ==>
                  base == ControlLogic(s, "valve", false, now.timestamp).(alert := FillFinished(now)))
    ensures r.motorOn ==> s.motorOn
    ensures Valid(s) ==> Valid(r)
  {
    var s1 := s.(waterLevelPct := TankLevel(echoUs));
    var s2 := DrainPulses(kFactor, s1).0;
    CheckSystemAsWritten(s2.(pulses := lateEdges), now)
  }

  /** Once the valve has been open longer than FLOW_TIMEOUT, the pass as
      written closes it however much water flowed in the last second:
      the counter it tests has just been cleared. */
  lemma TimeoutClosesFlowingValveAsWritten(kFactor: real, s: Controller, now: LocalTime, echoUs: int)
    requires kFactor != 0.0
    requires s.timeSynced && s.valveOn && s.pulses > 0
    requires now.timestamp - s.valveOpenTime > FlowTimeout
    ensures !BackgroundStepAsWritten(kFactor, s, now, echoUs, 0).valveOn
  {
  }

  /** A concrete run: the valve opened at t=1000, 450 pulses (one litre at
      the default calibration) were counted in the last second, the pass at
      t=1301 closes it and reports the fill as finished. */
  lemma FlowingFillCutAfterTimeoutAsWritten()
    ensures var s := Controller(true, false, 0, 1, NoAlert, 1000, true, 50.0, 0.0, 450);
            var now := LocalTime(10, 5, 1, 2, 1301);
            var r := BackgroundStepAsWritten(450.0, s, now, 5820, 0);
            !r.valveOn && r.alert == FillFinished(now) && r.litersTotal == 1.0
  {
  }

  /** One pass of `background_tasks` with the no-flow test corrected to
      the pulses of the last second: the level is read, the counter is
      drained into the total and `check_system` sees what was drained. */
  function BackgroundStep(kFactor: real, s: Controller, now: LocalTime, echoUs: int): (r: Controller)
    requires s.pulses > 0 ==> kFactor != 0.0
    ensures r.waterLevelPct == TankLevel(echoUs) && r.pulses == 0
    ensures s.pulses == 0 ==> r.litersTotal == s.litersTotal
    ensures s.pulses > 0 ==> (r.litersTotal - s.litersTotal) * kFactor == s.pulses as real
    ensures r.timeSynced == s.timeSynced
    ensures s.timeSynced && !s.valveOn ==> (r.valveOn <==> ScheduleDue(now))
    ensures s.timeSynced && s.valveOn ==>
              (!r.valveOn <==> now.timestamp - s.valveOpenTime > FlowTimeout && s.pulses == 0)
    ensures var base := r.(waterLevelPct := s.waterLevelPct, litersTotal := s.litersTotal, pulses := s.pulses);
            && (!s.timeSynced || (!s.valveOn && !ScheduleDue(now)) || (s.valveOn && r.valveOn) ==> base == s)
            && (s.timeSynced && !s.valveOn && ScheduleDue(now) ==> base == ControlLogic(s, "valve", true, now.timestamp))
            && (s.timeSynced && s.valveOn && !r.valveOn ==>
                  base == ControlLogic(s, "valve", false, now.timestamp).(alert := FillFinished(now)))
    ensures r.motorOn ==> s.motorOn
    ensures Valid(s) ==> Valid(r)
  {
    var s1 := s.(waterLevelPct := TankLevel(echoUs));
    var (s2, drained) := DrainPulses(kFactor, s1);
    CheckSystem(s2, now, drained)
  }

  /** With the correction, a valve through which water flowed in the last
      second stays open, however long it has been open; and with no flow
      in that second it closes exactly when the limit has passed. */
  lemma FlowingValveStaysOpen(kFactor: real, s: Controller, now: LocalTime, echoUs: int)
    requires kFactor != 0.0
    requires s.timeSynced && s.valveOn
    ensures s.pulses > 0 ==> BackgroundStep(kFactor, s, now, echoUs).valveOn
    ensures s.pulses == 0 ==>
              (BackgroundStep(kFactor, s, now, echoUs).valveOn <==> now.timestamp - s.valveOpenTime <= FlowTimeout)
  {
  }

  /** The second half of a valve opening as written: after the two-second
      pause the valve pin is driven, the flag set, the opening time
      recorded and the alert cleared, without looking at the motor again. */
  function ResumeOpenValveAsWritten(s: Controller, now: int): (r: Controller)
    ensures r.valveOn && r.valveOpenTime == now && r.alert == NoAlert
    ensures r.motorOn == s.motorOn && r.motorPin == s.motorPin
    ensures r.valvePin == Drive(true)
  {
    s.(valvePin := Drive(true), valveOn := true, valveOpenTime := now, alert := NoAlert)
  }

  /** Without anything in between, the opening as written and the
      corrected one (OpenValve re-checks the motor) agree: the correction
      only matters when another coroutine runs during the pause. */
  lemma OpeningWithoutInterleavingAgrees(s: Controller, now: int)
    ensures ResumeOpenValveAsWritten(StopMotorForValve(s), now) == OpenValve(StopMotorForValve(s), now)
    ensures ResumeOpenValveAsWritten(StopMotorForValve(s), now) == ControlLogic(s, "valve", true, now)
  {
  }

  /** What can happen between the background pass and the web server,
      which the event loop interleaves at each `await`. */
  datatype Event =
    | FlowEdge
    | Background(clock: LocalTime, echoUs: int)
    | Request(httpMethod: string, path: string, at: int)
    | OpeningPaused
    | OpeningResumed(resumedAt: int)
    | TimeSync(ok: bool)

  /** One event with the valve opening corrected. */
  function Step(kFactor: real, s: Controller, e: Event): (r: Controller)
    requires kFactor != 0.0
    ensures Valid(s) ==> Valid(r)
  {
    match e
    case FlowEdge => FlowHandler(s)
    case Background(now, echoUs) => BackgroundStep(kFactor, s, now, echoUs)
    case Request(httpMethod, path, now) => ServeClient(s, httpMethod, path, now)
    case OpeningPaused => StopMotorForValve(s)
    case OpeningResumed(now) => OpenValve(s, now)
    case TimeSync(ok) => SyncTime(s, ok)
  }

  function Run(kFactor: real, s: Controller, events: seq<Event>): Controller
    requires kFactor != 0.0
    decreases |events|
  {
    if |events| == 0 then s else Run(kFactor, Step(kFactor, s, events[0]), events[1..])
  }

  /** Whatever the interleaving of requests, flow edges, background passes
      and paused valve openings, valve and motor are never on together and
      each pin is low exactly when its actuator is on. */
  lemma {:induction false} InterlockAlwaysHolds(kFactor: real, s: Controller, events: seq<Event>)
    requires kFactor != 0.0
    requires Valid(s)
    ensures Valid(Run(kFactor, s, events))
    decreases |events|
  {
    if |events| > 0 {
      InterlockAlwaysHolds(kFactor, Step(kFactor, s, events[0]), events[1..]);
    }
  }

  /** With the correction and no water flowing, a synced open valve keeps
      its opening time through every background pass up to FLOW_TIMEOUT,
      and the first pass past the limit closes it and reports the fill as
      finished. */
  lemma {:induction false} DryValveClosesAtTimeout(kFactor: real, s: Controller, events: seq<Event>)
    requires kFactor != 0.0
    requires s.timeSynced && s.valveOn && s.pulses == 0
    requires |events| > 0 && forall i :: 0 <= i < |events| ==> events[i].Background?
    requires forall i :: 0 <= i < |events| - 1 ==> events[i].clock.timestamp - s.valveOpenTime <= FlowTimeout
    requires events[|events| - 1].clock.timestamp - s.valveOpenTime > FlowTimeout
    ensures var r := Run(kFactor, s, events);
            !r.valveOn && r.alert == FillFinished(events[|events| - 1].clock)
    decreases |events|
  {
    var s1 := Step(kFactor, s, events[0]);
    if |events| > 1 {
      assert s1.valveOn && s1.valveOpenTime == s.valveOpenTime && s1.pulses == 0 && s1.timeSynced;
      DryValveClosesAtTimeout(kFactor, s1, events[1..]);
    }
  }

  /** One event as written: the background pass tests the cleared counter
      (no edge lands inside the pass, which runs between two `await`s) and
      the resumed opening does not look at the motor again. */
  function StepAsWritten(kFactor: real, s: Controller, e: Event): Controller
    requires kFactor != 0.0
  {
    match e
    case Background(now, echoUs) => BackgroundStepAsWritten(kFactor, s, now, echoUs, 0)
    case OpeningResumed(now) => ResumeOpenValveAsWritten(s, now)
    case _ => Step(kFactor, s, e)
  }

  function RunAsWritten(kFactor: real, s: Controller, events: seq<Event>): Controller
    requires kFactor != 0.0
    decreases |events|
  {
    if |events| == 0 then s else RunAsWritten(kFactor, StepAsWritten(kFactor, s, events[0]), events[1..])
  }

  /** As written, a motor toggle posted while a valve opening sleeps
      restarts the motor (the valve is still closed and the tank is above
      10 %), and the resumed opening then opens the valve beside it. */
  lemma MotorToggleDuringPauseAsWritten(kFactor: real, s: Controller, t: int)
    requires kFactor != 0.0
    requires Valid(s) && s.motorOn && s.waterLevelPct > MotorMinLevelPct
    ensures var r := RunAsWritten(kFactor, s, [OpeningPaused, Request("POST", "/motor/toggle", t), OpeningResumed(t + 2)]);
            r.valveOn && r.motorOn
  {
    var path := "/motor/toggle";
    MotorTogglePath();
    var events := [OpeningPaused, Request("POST", path, t), OpeningResumed(t + 2)];
    var s1 := StopMotorForValve(s);
    var s2 := ServeClient(s1, "POST", path, t);
    assert s2.motorOn && !s2.valveOn;
    var s3 := ResumeOpenValveAsWritten(s2, t + 2);
    assert events[1..] == [Request("POST", path, t), OpeningResumed(t + 2)];
    assert events[1..][1..] == [OpeningResumed(t + 2)];
    assert RunAsWritten(kFactor, s2, events[1..][1..]) == RunAsWritten(kFactor, s3, []) == s3;
    assert RunAsWritten(kFactor, s1, events[1..]) == RunAsWritten(kFactor, s2, events[1..][1..]);
    assert RunAsWritten(kFactor, s, events) == RunAsWritten(kFactor, s1, events[1..]);
  }

  /** The corrected opening on the same interleaving stops the restarted
      motor again before the valve opens. */
  lemma MotorToggleDuringPauseCorrected(kFactor: real, s: Controller, t: int)
    requires kFactor != 0.0
    requires Valid(s) && s.motorOn && s.waterLevelPct > MotorMinLevelPct
    ensures var r := Run(kFactor, s, [OpeningPaused, Request("POST", "/motor/toggle", t), OpeningResumed(t + 2)]);
            r.valveOn && !r.motorOn && Valid(r)
  {
    var events := [OpeningPaused, Request("POST", "/motor/toggle", t), OpeningResumed(t + 2)];
    InterlockAlwaysHolds(kFactor, s, events);
    var s1 := StopMotorForValve(s);
    var s2 := ServeClient(s1, "POST", "/motor/toggle", t);
    var s3 := OpenValve(s2, t + 2);
    assert events[1..] == [Request("POST", "/motor/toggle", t), OpeningResumed(t + 2)];
    assert events[1..][1..] == [OpeningResumed(t + 2)];
    assert Run(kFactor, s2, events[1..][1..]) == Run(kFactor, s3, []) == s3;
    assert Run(kFactor, s1, events[1..]) == Run(kFactor, s2, events[1..][1..]);
    assert Run(kFactor, s, events) == Run(kFactor, s1, events[1..]);
  }

  /** The motor-toggle path is told apart from the valve toggle. */
  lemma MotorTogglePath()
    ensures Contains("/motor/toggle", "/motor/toggle")
    ensures !Contains("/motor/toggle", "/valve/toggle")
  {
  }

  /** A request that zeroes the total. */
  predicate IsReset(e: Event) {
    e.Request? && e.httpMethod == "POST" && !Contains(e.path, "/valve/toggle")
    && !Contains(e.path, "/motor/toggle") && Contains(e.path, "/flow/reset")
  }

  function CountEdges(events: seq<Event>): nat
    decreases |events|
  {
    if |events| == 0 then 0 else (if events[0].FlowEdge? then 1 else 0) + CountEdges(events[1..])
  }

  /** From `s` to `r`, with `edges` flow edges seen in between, every
      pulse is accounted for: the litres added times K_FACTOR plus the
      pulses still pending equal the pulses pending at `s` plus the edges. */
  predicate Conserves(kFactor: real, s: Controller, r: Controller, edges: nat) {
    (r.litersTotal - s.litersTotal) * kFactor + r.pulses as real == s.pulses as real + edges as real
  }

  lemma ConservesChain(kFactor: real, s: Controller, s1: Controller, r: Controller, e1: nat, e2: nat)
    requires Conserves(kFactor, s, s1, e1) && Conserves(kFactor, s1, r, e2)
    ensures Conserves(kFactor, s, r, e1 + e2)
  {
  }

  /** Every event other than a reset accounts for all pulses. */
  lemma StepConserves(kFactor: real, s: Controller, e: Event)
    requires kFactor != 0.0
    requires !IsReset(e)
    ensures Conserves(kFactor, s, Step(kFactor, s, e), if e.FlowEdge? then 1 else 0)
  {
  }

  /** No flow edge is lost: over any run without a reset, the litres added
      times K_FACTOR plus the pulses still pending equal the pulses pending
      at the start plus the edges seen. */
  lemma {:induction false} PulsesAreConserved(kFactor: real, s: Controller, events: seq<Event>)
    requires kFactor != 0.0
    requires forall i :: 0 <= i < |events| ==> !IsReset(events[i])
    ensures Conserves(kFactor, s, Run(kFactor, s, events), CountEdges(events))
    decreases |events|
  {
    if |events| > 0 {
      var s1 := Step(kFactor, s, events[0]);
      StepConserves(kFactor, s, events[0]);
      assert forall i :: 0 <= i < |events[1..]| ==> !IsReset(events[1..][i]);
      PulsesAreConserved(kFactor, s1, events[1..]);
      ConservesChain(kFactor, s, s1, Run(kFactor, s1, events[1..]),
                     if events[0].FlowEdge? then 1 else 0, CountEdges(events[1..]));
    }
  }

  /** Without a reset and with a positive K_FACTOR the total never falls. */
  lemma {:induction false} TotalOnlyGrowsWithoutReset(kFactor: real, s: Controller, events: seq<Event>)
    requires kFactor > 0.0
    requires forall i :: 0 <= i < |events| ==> !IsReset(events[i])
    ensures Run(kFactor, s, events).litersTotal >= s.litersTotal
    decreases |events|
  {
    if |events| > 0 {
      var s1 := Step(kFactor, s, events[0]);
      assert s1.litersTotal >= s.litersTotal by {
        assert !IsReset(events[0]);
        if events[0].Background? && s.pulses > 0 {
          assert (s1.litersTotal - s.litersTotal) * kFactor == s.pulses as real;
        }
      }
      TotalOnlyGrowsWithoutReset(kFactor, s1, events[1..]);
    }
  }
}

=== FILE: pystr.dfy ===
/** The few Python string operations the command channel relies on:
    `str.strip()`, `str.split(sep)`, `str.split(sep, maxsplit)`,
    `str.upper()`, substring tests and `int(str)`, each on the ASCII
    subset the commands use. */
module PyStr {
  import opened Results

  /** White space as `str.strip()` and `int()` skip it (ASCII subset). */
  predicate IsSpace(c: char) {
    c == ' ' || c == '\t' || c == '\n' || c == '\r' || c == '\U{0B}' || c == '\U{0C}'
  }

  predicate NoSpace(s: string) {
    forall k :: 0 <= k < |s| ==> !IsSpace(s[k])
  }

  /** Number of white-space characters at the front of `s`. */
  function LeadingSpaces(s: string): (n: nat)
    ensures n <= |s|
    ensures forall k :: 0 <= k < n ==> IsSpace(s[k])
    ensures n < |s| ==> !IsSpace(s[n])
  {
    if |s| > 0 && IsSpace(s[0]) then 1 + LeadingSpaces(s[1..]) else 0
  }

  /** The end of `s` once its trailing white space (not reaching below `lo`) is cut. */
  function TrailingCut(s: string, lo: nat): (j: nat)
    requires lo <= |s|
    ensures lo <= j <= |s|
    ensures forall k :: j <= k < |s| ==> IsSpace(s[k])
    ensures j > lo ==> !IsSpace(s[j - 1])
    decreases |s|
  {
    if |s| > lo && IsSpace(s[|s| - 1]) then
      var j := TrailingCut(s[..|s| - 1], lo);
      assert forall k :: j <= k < |s| - 1 ==> s[..|s| - 1][k] == s[k];
      j
    else |s|
  }

  /** `s.strip()`: the slice of `s` left once white space is cut from both ends. */
  function Strip(s: string): (r: string)
    ensures LeadingSpaces(s) + |r| <= |s|
    ensures r == s[LeadingSpaces(s)..LeadingSpaces(s) + |r|]
    ensures forall k :: 0 <= k < LeadingSpaces(s) ==> IsSpace(s[k])
    ensures forall k :: LeadingSpaces(s) + |r| <= k < |s| ==> IsSpace(s[k])
    ensures |r| > 0 ==> !IsSpace(r[0]) && !IsSpace(r[|r| - 1])
    ensures NoSpace(s) ==> r == s
    ensures |s| > 0 && !IsSpace(s[0]) && !IsSpace(s[|s| - 1]) ==> r == s
  {
    var i := LeadingSpaces(s);
    var j := TrailingCut(s, i);
    assert NoSpace(s) ==> i == 0 && j == |s|;
    assert |s| > 0 && !IsSpace(s[0]) && !IsSpace(s[|s| - 1]) ==> i == 0 && j == |s|;
    s[i..j]
  }

  lemma StripIdempotent(s: string)
    ensures Strip(Strip(s)) == Strip(s)
  {
    var t := Strip(s);
    if |t| > 0 {
      assert LeadingSpaces(t) == 0;
      assert TrailingCut(t, 0) == |t|;
    }
  }

  /** Joins `parts` with `sep` between consecutive parts (Python's `sep.join`). */
  function Join(parts: seq<string>, sep: char): string
    requires |parts| >= 1
  {
    if |parts| == 1 then parts[0] else parts[0] + [sep] + Join(parts[1..], sep)
  }

  predicate Free(parts: seq<string>, sep: char) {
    forall i :: 0 <= i < |parts| ==> sep !in parts[i]
  }

  /** `s.split(sep)` for a one-character separator: every occurrence cuts,
      empty pieces are kept, and the empty string gives one empty piece. */
  function Split(s: string, sep: char): (parts: seq<string>)
    ensures |parts| >= 1
    ensures Free(parts, sep)
    ensures Join(parts, sep) == s
    decreases |s|
  {
    if |s| == 0 then [""]
    else
      var rest := Split(s[1..], sep);
      if s[0] == sep then
        assert ([""] + rest)[1..] == rest;
        [""] + rest
      else
        var parts := [[s[0]] + rest[0]] + rest[1..];
        assert |rest| > 1 ==> Join(rest, sep) == rest[0] + [sep] + Join(rest[1..], sep);
        assert parts[1..] == rest[1..];
        parts
  }

  lemma {:induction false} SplitNoSeparator(p: string, sep: char)
    requires sep !in p
    ensures Split(p, sep) == [p]
    decreases |p|
  {
    if |p| > 0 {
      SplitNoSeparator(p[1..], sep);
      assert [p[0]] + p[1..] == p;
    }
  }

  lemma {:induction false} SplitAtFirstSeparator(p: string, t: string, sep: char)
    requires sep !in p
    ensures Split(p + [sep] + t, sep) == [p] + Split(t, sep)
    decreases |p|
  {
    var s := p + [sep] + t;
    if |p| == 0 {
      assert s[1..] == t;
    } else {
      assert s[1..] == p[1..] + [sep] + t;
      SplitAtFirstSeparator(p[1..], t, sep);
      assert [p[0]] + p[1..] == p;
    }
  }

  /** Splitting undoes joining: `Split` is the only separator-free
      decomposition that joins back to the string. */
  lemma {:induction false} SplitJoin(parts: seq<string>, sep: char)
    requires |parts| >= 1 && Free(parts, sep)
    ensures Split(Join(parts, sep), sep) == parts
    decreases |parts|
  {
    if |parts| == 1 {
      SplitNoSeparator(parts[0], sep);
    } else {
      SplitJoin(parts[1..], sep);
      SplitAtFirstSeparator(parts[0], Join(parts[1..], sep), sep);
      assert [parts[0]] + parts[1..] == parts;
    }
  }

  /** `s.split(sep, maxsplit)`: as `Split`, but cuts at the first
      `maxsplit` separators only; the last piece keeps the rest. */
  function SplitN(s: string, sep: char, maxsplit: nat): (parts: seq<string>)
    ensures 1 <= |parts| <= maxsplit + 1
    ensures forall i :: 0 <= i < |parts| - 1 ==> sep !in parts[i]
    ensures |parts| <= maxsplit ==> sep !in parts[|parts| - 1]
    ensures Join(parts, sep) == s
    ensures parts[0] == "" <==> |s| == 0 || (s[0] == sep && maxsplit > 0)
    decreases |s|
  {
    if |s| == 0 then [""]
    else if maxsplit == 0 then [s]
    else if s[0] == sep then
      var rest := SplitN(s[1..], sep, maxsplit - 1);
      assert ([""] + rest)[1..] == rest;
      [""] + rest
    else
      var rest := SplitN(s[1..], sep, maxsplit);
      var parts := [[s[0]] + rest[0]] + rest[1..];
      assert |rest| > 1 ==> Join(rest, sep) == rest[0] + [sep] + Join(rest[1..], sep);
      assert parts[1..] == rest[1..];
      parts
  }

  lemma {:induction false} SplitNNoSeparator(p: string, sep: char, maxsplit: nat)
    requires sep !in p
    ensures SplitN(p, sep, maxsplit) == [p]
    decreases |p|
  {
    if |p| > 0 && maxsplit > 0 {
      SplitNNoSeparator(p[1..], sep, maxsplit);
      assert [p[0]] + p[1..] == p;
    }
  }

  lemma {:induction false} SplitNAtFirstSeparator(p: string, t: string, sep: char, maxsplit: nat)
    requires sep !in p && maxsplit > 0
    ensures SplitN(p + [sep] + t, sep, maxsplit) == [p] + SplitN(t, sep, maxsplit - 1)
    decreases |p|
  {
    var s := p + [sep] + t;
    if |p| == 0 {
      assert s[1..] == t;
    } else {
      assert s[1..] == p[1..] + [sep] + t;
      SplitNAtFirstSeparator(p[1..], t, sep, maxsplit);
      assert [p[0]] + p[1..] == p;
    }
  }

  /** The first piece of a split with a limit is `w` exactly when the
      text is `w` itself or starts with `prefix`, which is `w` and a
      separator. */
  lemma SplitNHead(s: string, sep: char, maxsplit: nat, w: string, prefix: string)
    requires maxsplit > 0 && sep !in w && prefix == w + [sep]
    ensures SplitN(s, sep, maxsplit)[0] == w <==> s == w || (|s| >= |prefix| && s[..|prefix|] == prefix)
  {
    var parts := SplitN(s, sep, maxsplit);
    if s == w {
      SplitNNoSeparator(s, sep, maxsplit);
    }
    if |s| >= |prefix| && s[..|prefix|] == prefix {
      SplitNAfterPrefix(s, sep, maxsplit, w, prefix);
    }
    if parts[0] == w && |parts| > 1 {
      var tail := Join(parts[1..], sep);
      assert s == w + [sep] + tail;
      assert s[..|prefix|] == prefix;
    }
  }

  /** After a leading word and separator, the split goes on with the rest. */
  lemma SplitNAfterPrefix(s: string, sep: char, maxsplit: nat, w: string, prefix: string)
    requires maxsplit > 0 && sep !in w && prefix == w + [sep]
    requires |s| >= |prefix| && s[..|prefix|] == prefix
    ensures SplitN(s, sep, maxsplit) == [w] + SplitN(s[|prefix|..], sep, maxsplit - 1)
  {
    assert s == w + [sep] + s[|prefix|..];
    SplitNAtFirstSeparator(w, s[|prefix|..], sep, maxsplit);
  }

  /** A split with a limit leaves the text whole exactly when it has no separator. */
  lemma SplitNWhole(s: string, sep: char, maxsplit: nat)
    requires maxsplit > 0
    ensures |SplitN(s, sep, maxsplit)| == 1 <==> sep !in s
  {
    if sep !in s {
      SplitNNoSeparator(s, sep, maxsplit);
    }
  }

  /** `str.upper()` on one character (ASCII letters only). */
  function UpperChar(c: char): char {
    if 'a' <= c <= 'z' then (c as int - 32) as char else c
  }

  function Upper(s: string): (r: string)
    ensures |r| == |s|
    ensures forall i :: 0 <= i < |s| ==> r[i] == UpperChar(s[i])
  {
    seq(|s|, i requires 0 <= i < |s| => UpperChar(s[i]))
  }

  predicate NoLower(s: string) {
    forall i :: 0 <= i < |s| ==> !('a' <= s[i] <= 'z')
  }

  lemma NoLowerConcat(a: string, b: string)
    requires NoLower(a) && NoLower(b)
    ensures NoLower(a + b)
  {
    forall i | 0 <= i < |a + b| ensures !('a' <= (a + b)[i] <= 'z') {
      if i >= |a| { assert (a + b)[i] == b[i - |a|]; }
    }
  }

  lemma UpperFixes(s: string)
    requires NoLower(s)
    ensures Upper(s) == s
  {
  }

  /** `needle in s` for strings: `needle` occurs somewhere in `s`. */
  predicate Contains(s: string, needle: string)
    decreases |s|
  {
    |needle| <= |s| && (s[..|needle|] == needle || (|s| > 0 && Contains(s[1..], needle)))
  }

  /** `needle` is the slice of `s` that starts at `i`. */
  predicate OccursAt(s: string, needle: string, i: int) {
    0 <= i && i + |needle| <= |s| && s[i..i + |needle|] == needle
  }

  /** The scan from the front finds `needle` exactly when it occurs at
      some position of `s`. */
  lemma {:induction false} ContainsOccurs(s: string, needle: string)
    ensures Contains(s, needle) <==> exists i :: OccursAt(s, needle, i)
    decreases |s|
  {
    if |needle| <= |s| {
      if s[..|needle|] == needle {
        assert OccursAt(s, needle, 0);
      } else if |s| > 0 {
        ContainsOccurs(s[1..], needle);
        if i :| OccursAt(s[1..], needle, i) {
          assert s[1..][i..i + |needle|] == s[i + 1..i + 1 + |needle|];
          assert OccursAt(s, needle, i + 1);
        }
        if i :| OccursAt(s, needle, i) {
          assert i != 0;
          assert s[1..][i - 1..i - 1 + |needle|] == s[i..i + |needle|];
          assert OccursAt(s[1..], needle, i - 1);
        }
      }
    }
  }

  predicate IsDigit(c: char) {
    '0' <= c <= '9'
  }

  predicate AllDigits(s: string) {
    forall k :: 0 <= k < |s| ==> IsDigit(s[k])
  }

  /** The decimal value of a string of digits (leading zeros allowed). */
  function DigitsValue(s: string): nat
    requires AllDigits(s)
  {
    if |s| == 0 then 0 else DigitsValue(s[..|s| - 1]) * 10 + (s[|s| - 1] as int - '0' as int)
  }

  /** The digits of an integer literal once its sign, if any, is cut off. */
  function Unsigned(t: string): string {
    if |t| > 0 && (t[0] == '+' || t[0] == '-') then t[1..] else t
  }

  /** A base-10 integer literal: an optional sign, then at least one digit. */
  predicate IntLiteral(t: string) {
    |Unsigned(t)| > 0 && AllDigits(Unsigned(t))
  }

  /** `int(s)` in base 10: surrounding white space, an optional sign, and
      at least one digit; anything else is a ValueError (None). */
  function ParseInt(s: string): (r: Option<int>)
    ensures r.Some? ==> |Strip(s)| > 0
    ensures r.Some? && r.value < 0 ==> Strip(s)[0] == '-'
    ensures NoSpace(s) && |s| > 0 && AllDigits(s) ==> r == Some(DigitsValue(s))
  {
    var t := Strip(s);
    if |t| > 0 && (t[0] == '+' || t[0] == '-') then
      var d := t[1..];
      if |d| > 0 && AllDigits(d) then
        Some(if t[0] == '-' then -(DigitsValue(d) as int) else DigitsValue(d))
      else None
    else if |t| > 0 && AllDigits(t) then Some(DigitsValue(t))
    else None
  }

  /** `int(s)` succeeds exactly on an integer literal between white space:
      anything but an optional sign followed by digits is refused. */
  lemma ParseIntAccepts(s: string)
    ensures ParseInt(s).Some? <==> IntLiteral(Strip(s))
  {
  }

  /** The value `int(s)` gives: the digits' decimal value, negated after a minus sign. */
  lemma ParseIntValue(s: string)
    requires IntLiteral(Strip(s))
    ensures Strip(s)[0] == '-' ==> ParseInt(s) == Some(-(DigitsValue(Unsigned(Strip(s))) as int))
    ensures Strip(s)[0] != '-' ==> ParseInt(s) == Some(DigitsValue(Unsigned(Strip(s))))
  {
  }

  function DigitChar(d: nat): (c: char)
    requires d < 10
    ensures IsDigit(c)
  {
    ('0' as int + d) as char
  }

  /** Two-digit zero-padded decimal, as the `HH:MM` schedule format writes it. */
  function TwoDigits(n: nat): (s: string)
    requires n < 100
    ensures |s| == 2 && AllDigits(s) && NoSpace(s)
  {
    [DigitChar(n / 10), DigitChar(n % 10)]
  }

  lemma ParseTwoDigits(n: nat)
    requires n < 100
    ensures ParseInt(TwoDigits(n)) == Some(n)
  {
    var s := TwoDigits(n);
    assert s[..1] == [DigitChar(n / 10)];
    assert DigitsValue(s[..1]) == n / 10;
  }

  /** The decimal digits of `n`, most significant first, without leading zeros. */
  function Digits(n: nat): (s: string)
    ensures |s| > 0 && AllDigits(s) && NoSpace(s)
    decreases n
  {
    if n < 10 then [DigitChar(n)] else Digits(n / 10) + [DigitChar(n % 10)]
  }

  /** `str(n)`: the digits of `|n|`, after a minus sign when `n` is negative. */
  function Decimal(n: int): (s: string)
    ensures |s| > 0 && NoSpace(s)
  {
    if n < 0 then "-" + Digits(-n) else Digits(n)
  }

  lemma {:induction false} DigitsValueOfDigits(n: nat)
    ensures DigitsValue(Digits(n)) == n
    decreases n
  {
    var s := Digits(n);
    if n >= 10 {
      DigitsValueOfDigits(n / 10);
      assert s[..|s| - 1] == Digits(n / 10);
    }
  }

  /** `int(str(n)) == n` for every integer: the parser reads back what
      the formatter writes. */
  lemma ParseDecimal(n: int)
    ensures ParseInt(Decimal(n)) == Some(n)
  {
    var s := Decimal(n);
    assert Strip(s) == s;
    if n < 0 {
      assert s[0] == '-' && s[1..] == Digits(-n);
      assert Unsigned(s) == Digits(-n);
      DigitsValueOfDigits(-n);
    } else {
      assert IsDigit(s[0]);
      assert Unsigned(s) == Digits(n);
      DigitsValueOfDigits(n);
    }
    ParseIntValue(s);
  }
}

=== FILE: results.dfy ===
/** Failure-carrying values used by the parsers of the controller's
    command channel: a parse either yields a value or says why it failed. */
module Results {

  datatype Option<+T> = None | Some(value: T)

  datatype Result<+T, +E> = Ok(value: T) | Err(error: E)
}

=== FILE: schedule_command.dfy ===
/** `SCHEDULE SET HH:MM,HH:MM,...` of the BLE variant
    (`_process_schedule_command` in mainorig.py): an all-or-nothing
    parse of a comma-separated list of times, with range checks. */
module ScheduleCommand {
  import opened Results
  import opened PyStr
  import opened BleController

  /** Why a schedule string was refused, in the order the source checks. */
  datatype ScheduleError = EmptySchedule | InvalidTime(part: string) | BadFormat

  /** An entry read as hour and minute: it must cut at colons into exactly
      two pieces, each an integer; anything else is malformed. */
  datatype Entry = Parsed(hour: int, minute: int) | Malformed

  function ParseEntry(part: string): (e: Entry)
    ensures e.Parsed? <==> |Split(part, ':')| == 2
                           && ParseInt(Split(part, ':')[0]).Some?
                           && ParseInt(Split(part, ':')[1]).Some?
    ensures e.Parsed? ==> ParseInt(Split(part, ':')[0]) == Some(e.hour)
    ensures e.Parsed? ==> ParseInt(Split(part, ':')[1]) == Some(e.minute)
  {
    var pieces := Split(part, ':');
    if |pieces| == 2 then
      match (ParseInt(pieces[0]), ParseInt(pieces[1]))
      case (Some(h), Some(m)) => Parsed(h, m)
      case _ => Malformed
    else Malformed
  }

  predicate ValidSlot(slot: Slot) {
    0 <= slot.hour <= 23 && 0 <= slot.minute <= 59
  }

  predicate Accepted(part: string) {
    var e := ParseEntry(part);
    e.Parsed? && ValidSlot(Slot(e.hour, e.minute))
  }

  function SlotOf(part: string): Slot
    requires Accepted(part)
  {
    Slot(ParseEntry(part).hour, ParseEntry(part).minute)
  }

  /** The error an entry that is not accepted produces. */
  function Rejection(part: string): ScheduleError
    requires !Accepted(part)
  {
    if ParseEntry(part).Malformed? then BadFormat else InvalidTime(part)
  }

  /** Entry i is the first one refused. */
  predicate FirstRejected(parts: seq<string>, i: int) {
    0 <= i < |parts| && !Accepted(parts[i]) && forall k :: 0 <= k < i ==> Accepted(parts[k])
  }

  /** The loop over the entries: stops at the first bad one; otherwise
      yields every entry's time, in input order. */
  function ParseEntries(parts: seq<string>): (r: Result<seq<Slot>, ScheduleError>)
    ensures r.Ok? <==> AllAccepted(parts)
    ensures r.Ok? ==> |r.value| == |parts|
    ensures r.Ok? ==> forall i :: 0 <= i < |parts| ==> r.value[i] == SlotOf(parts[i])
    ensures r.Err? ==> exists i :: FirstRejected(parts, i) && r.error == Rejection(parts[i])
    decreases |parts|
  {
    if |parts| == 0 then Ok([])
    else if !Accepted(parts[0]) then
      assert FirstRejected(parts, 0);
      Err(Rejection(parts[0]))
    else
      AllAcceptedCons(parts);
      match ParseEntries(parts[1..])
      case Ok(rest) => Ok([SlotOf(parts[0])] + rest)
      case Err(e) =>
        FirstRejectedBehindAccepted(parts, e);
        Err(e)
  }

  predicate AllAccepted(parts: seq<string>) {
    forall i :: 0 <= i < |parts| ==> Accepted(parts[i])
  }

  lemma AllAcceptedCons(parts: seq<string>)
    requires |parts| > 0
    ensures AllAccepted(parts) <==> Accepted(parts[0]) && AllAccepted(parts[1..])
  {
    assert forall i :: 1 <= i < |parts| ==> parts[i] == parts[1..][i - 1];
  }

  /** A refusal found after an accepted first entry is the first refusal
      of the whole list. */
  lemma FirstRejectedBehindAccepted(parts: seq<string>, e: ScheduleError)
    requires |parts| > 0 && Accepted(parts[0])
    requires exists i :: FirstRejected(parts[1..], i) && e == Rejection(parts[1..][i])
    ensures exists i :: FirstRejected(parts, i) && e == Rejection(parts[i])
  {
    var i :| FirstRejected(parts[1..], i) && e == Rejection(parts[1..][i]);
    assert forall k :: 1 <= k < i + 1 ==> parts[k] == parts[1..][k - 1];
    assert FirstRejected(parts, i + 1);
  }

  function StripAll(parts: seq<string>): (r: seq<string>)
    ensures |r| == |parts|
    ensures forall i :: 0 <= i < |parts| ==> r[i] == Strip(parts[i])
  {
    seq(|parts|, i requires 0 <= i < |parts| => Strip(parts[i]))
  }

  /** The entries of a schedule string: split at commas, each stripped. */
  function Entries(text: string): (parts: seq<string>)
    ensures |parts| >= 1
  {
    StripAll(Split(text, ','))
  }

  /** The whole parse. Empty (first entry blank) is refused before any
      entry is looked at; on success the result is exactly the entries'
      times, in input order, each within 00:00..23:59. */
  function ParseSchedule(text: string): (r: Result<seq<Slot>, ScheduleError>)
    ensures r == Err(EmptySchedule) <==> Entries(text)[0] == ""
    ensures r.Ok? <==> Entries(text)[0] != "" && forall i :: 0 <= i < |Entries(text)| ==> Accepted(Entries(text)[i])
    ensures r.Ok? ==> |r.value| == |Entries(text)| >= 1
    ensures r.Ok? ==> forall i :: 0 <= i < |r.value| ==> r.value[i] == SlotOf(Entries(text)[i])
    ensures r.Ok? ==> forall i :: 0 <= i < |r.value| ==> ValidSlot(r.value[i])
    ensures r.Err? && r.error != EmptySchedule ==>
              exists i :: FirstRejected(Entries(text), i) && r.error == Rejection(Entries(text)[i])
  {
    var parts := Entries(text);
    if parts[0] == "" then Err(EmptySchedule)
    else
      var r := ParseEntries(parts);
      assert r.Err? ==> r.error != EmptySchedule by {
        if r.Err? {
          var i :| FirstRejected(parts, i) && r.error == Rejection(parts[i]);
        }
      }
      r
  }

  /** Replies that report a failure start with `ERR:`. */
  predicate IsError(reply: string) {
    |reply| >= 4 && reply[..4] == "ERR:"
  }

  /** A failure reply: `ERR:` followed by the detail. */
  function ErrorText(detail: string): (reply: string)
    ensures IsError(reply)
  {
    assert ("ERR:" + detail)[..4] == "ERR:";
    "ERR:" + detail
  }

  /** The reply to an accepted schedule, by whether the save succeeded. */
  function SavedReply(saved: bool): (reply: string)
    ensures IsError(reply) <==> !saved
  {
    var ok := "OK: Horario actualizado";
    assert ok[..4][0] == 'O';
    if saved then ok else ErrorText(" Fallo al guardar config")
  }

  /** The reply text for a refused schedule. */
  function ErrorReply(e: ScheduleError): (reply: string)
    ensures IsError(reply)
  {
    match e
    case EmptySchedule => ErrorText(" Horario vacío")
    case InvalidTime(part) => ErrorText(" Hora inválida " + part)
    case BadFormat => ErrorText(" Formato de horario incorrecto (HH:MM,HH:MM)")
  }

  /** `_process_schedule_command`: a refused string leaves the table as it
      was; an accepted one replaces it wholesale. `saved` is whether the
      configuration file write succeeded: the table is replaced in memory
      before that write, so a failed write still leaves the new table in
      place but replies with an error. */
  function ProcessSchedule(s: Controller, text: string, saved: bool): (r: (Controller, string))
    ensures ParseSchedule(text).Err? ==> r.0 == s && IsError(r.1)
    ensures ParseSchedule(text).Ok? ==> r.0 == s.(scheduledTimes := ParseSchedule(text).value)
    ensures !IsError(r.1) <==> ParseSchedule(text).Ok? && saved
    ensures Valid(s) ==> Valid(r.0)
  {
    var parsed := ParseSchedule(text);
    if parsed.Err? then (s, ErrorReply(parsed.error))
    else
      (s.(scheduledTimes := parsed.value), SavedReply(saved))
  }

  /** Writes a slot as `HH:MM`. */
  function FormatSlot(slot: Slot): string
    requires ValidSlot(slot)
  {
    TwoDigits(slot.hour as nat) + [':'] + TwoDigits(slot.minute as nat)
  }

  function FormatAll(slots: seq<Slot>): (r: seq<string>)
    requires forall i :: 0 <= i < |slots| ==> ValidSlot(slots[i])
    ensures |r| == |slots|
    ensures forall i :: 0 <= i < |slots| ==> r[i] == FormatSlot(slots[i])
  {
    seq(|slots|, i requires 0 <= i < |slots| && ValidSlot(slots[i]) => FormatSlot(slots[i]))
  }

  /** Writes a schedule the way the command expects it: `HH:MM,HH:MM,...`. */
  function FormatSchedule(slots: seq<Slot>): string
    requires |slots| >= 1
    requires forall i :: 0 <= i < |slots| ==> ValidSlot(slots[i])
  {
    Join(FormatAll(slots), ',')
  }

  lemma FormatSlotShape(slot: Slot)
    requires ValidSlot(slot)
    ensures ',' !in FormatSlot(slot)
    ensures NoSpace(FormatSlot(slot))
    ensures Accepted(FormatSlot(slot)) && SlotOf(FormatSlot(slot)) == slot
  {
    var h := TwoDigits(slot.hour as nat);
    var m := TwoDigits(slot.minute as nat);
    var f := FormatSlot(slot);
    assert f == Join([h, m], ':');
    SplitJoin([h, m], ':');
    ParseTwoDigits(slot.hour as nat);
    ParseTwoDigits(slot.minute as nat);
  }

  /** Any non-empty table of valid times, written out, parses back to
      itself: the parser accepts every well-formed schedule and loses
      nothing of it. */
  lemma ScheduleRoundTrip(slots: seq<Slot>)
    requires |slots| >= 1
    requires forall i :: 0 <= i < |slots| ==> ValidSlot(slots[i])
    ensures ParseSchedule(FormatSchedule(slots)) == Ok(slots)
  {
    var parts := FormatAll(slots);
    forall i | 0 <= i < |parts|
      ensures ',' !in parts[i] && NoSpace(parts[i])
      ensures Accepted(parts[i]) && SlotOf(parts[i]) == slots[i]
    {
      FormatSlotShape(slots[i]);
    }
    SplitJoin(parts, ',');
    var entries := Entries(FormatSchedule(slots));
    assert entries == parts;
    assert |parts[0]| == 5;
    var r := ParseSchedule(FormatSchedule(slots));
    assert r.value == slots;
  }
}
